=== FILE: README.md ===
# BS 7671 cable sizing, modelled in Dafny

This project models the compliance logic of two BS 7671 (IET Wiring
Regulations) cable-sizing calculators and proves properties of it.

- **The fuller calculator** (`bs7671_with_ze_cs_cd.py`) has tables for 1 mm2
  to 1000 mm2. It resolves the ambient-temperature, grouping and
  thermal-insulation correction factors from tables. It takes the soil and
  depth factors and the external earth-fault loop impedance Ze as inputs. It
  either checks one chosen size or searches for the smallest compliant size.
- **The reduced calculator** (`bs7671_streamlit_app_auto_adjust.py`) has four
  sizes from 2.5 mm2 to 10 mm2. Ca, Cg and Ci are inputs, Ze is fixed at
  0.35 ohm, and it searches only.

Both calculators do the same steps:

1. Compute the design current Ib.
2. Choose the protective-device rating: the first standard rating at or above
   Ib, and 100 A when none is.
3. Compute the required ampacity `rating / correction`.
4. Walk the sizes in ascending order. A size whose tabulated ampacity is below
   the required value is skipped. Any other size gets five checks:
   - voltage drop at most 5 % of the supply voltage;
   - earth-fault loop impedance Zs within the device limit;
   - line-conductor short-circuit withstand (the adiabatic check of
     Regulation 543.1.3 with k = 115 and t = 0.4 s);
   - earth-conductor short-circuit withstand;
   - disconnection time.

The project has five files:

- `wrappers.dfy`: `Option` and `Result`.
- `protection.dfy` (module `Protection`): the rules both scripts define
  identically. These are the standard ratings, the rating choice, the design
  current, the earth-conductor rule, the trip-time approximation, the
  required disconnection time and the maximum Zs per device.
- `compliance.dfy` (module `Compliance`): the per-size checks and the
  search loop as an imperative method. It also holds the fixed-size check,
  whose list of failures is built by appends. The module is parameterised by
  a catalogue (sizes, ampacity map, voltage-drop map).
- `full_calculator.dfy` (module `FullCalculator`): the fuller calculator's
  tables, the correction-factor lookups and one press of "Calculate".
- `reduced_calculator.dfy` (module `ReducedCalculator`): the reduced
  calculator's tables and one press of "Calculate", both as written and
  corrected (see Findings).

How the model represents the source:

- **Arithmetic.** Quantities are exact `real`s.
- **√3.** It is a parameter `sqrt3`, constrained by `sqrt3 > 0` and
  `sqrt3 * sqrt3 == 3`.
- **The short-circuit check.** `csa >= sqrt(I^2 * 0.4) / 115` is compared on
  squares as `csa >= 0 && (115 csa)^2 >= I^2 * 0.4`.
  `Compliance.WithstandsIsAdiabatic` proves the two forms agree.
- **Python exceptions.** They become `Err` values:
  - a `KeyError` is `MissingTableEntry`;
  - a `ZeroDivisionError` is `DivisionByZero`;
  - a `NameError` is `UnboundMeasurement`.

Some points where the code departs from what a reader of BS 7671 would
expect; the model follows the code:

- **Ci with no thermal insulation.** With no run in thermal insulation, Ci is
  0.89, not 1.0 (no derating). So the 5 kW example (230 V, pf 1,
  single-phase, 10 m single-core PVC, method C, MCB type B, 500 A) needs
  about 28.1 A rather than 25 A. It still selects 4 mm2
  (`FullCalculator.FiveKilowattExample`).
- **Ca.** It is an exact-key lookup that falls back to 1.0, not a lookup by
  temperature band. For example, 31 °C gives 1.0.
- **State after a failed search.** When the search finds nothing, the
  capacity and earth size reported are those of the last size walked. The
  measured values are those of the last size that carried the required
  current. The model keeps this carried-over state (`Compliance.AutoSearch`).

## Model

| member | source | states |
|---|---|---|
| Protection.Max | bs7671_with_ze_cs_cd.py:118 | `max(standard_ratings)`: the result is an element of the list and no element exceeds it |
| Protection.NextAtLeast | bs7671_with_ze_cs_cd.py:118 | `next(gen, default)`: if some entry is >= Ib, the result is such an entry; if none is, the result is the default; on an ascending list it is the smallest such entry |
| Protection.NextOrLargest | bs7671_with_ze_cs_cd.py:118 | on an ascending list with `max` as the default: the result is an entry; it is >= Ib when Ib is at most the last entry; it is at most every entry >= Ib; it is the last entry when Ib exceeds them all |
| Protection.SelectRating | bs7671_with_ze_cs_cd.py:118 | the rating is a standard rating. When Ib <= 100 it is >= Ib. It is no larger than any standard rating >= Ib, so it is the smallest such. When Ib > 100 it is 100 |
| Protection.MaxOfAscending | bs7671_with_ze_cs_cd.py:38 | the maximum of an ascending list is its last element |
| Protection.RatingAtEntry | bs7671_with_ze_cs_cd.py:118 | an Ib exactly equal to a standard rating selects that rating |
| Protection.RatingMonotonic | bs7671_with_ze_cs_cd.py:118 | a larger Ib never selects a smaller rating |
| Protection.RequiredIz | bs7671_with_ze_cs_cd.py:122 | `required_Iz = rating / correction`: derated by the correction it gives back the rating; it is positive for a positive rating and never below the rating when the correction is at most 1 |
| Protection.DesignCurrent | bs7671_with_ze_cs_cd.py:115 | an error, a division by zero, exactly when the voltage is 0. Otherwise Ib >= 0 and `Ib * (1 or sqrt3) * V * pf == P * 1000` |
| Protection.ThreePhaseCurrent | bs7671_with_ze_cs_cd.py:115 | the three-phase Ib times sqrt(3) is the single-phase Ib of the same load |
| Protection.EarthConductorSize | bs7671_with_ze_cs_cd.py:41-47 | the result is the line size itself, or (above 16 mm2) 16 or half the line size. It is positive and never larger than a positive line size. It is at least 16 above 16 mm2 |
| Protection.EarthSizeMonotonic | bs7671_with_ze_cs_cd.py:41-47 | a larger line conductor never gets a smaller earth conductor |
| Protection.TripMultiple | bs7671_with_ze_cs_cd.py:51-57 | the multiplier is 4, 7, 10 or 15; it is 10 exactly for fuses; among MCBs 4 only for type B and 15 only for type D |
| Protection.DisconnectionTime | bs7671_with_ze_cs_cd.py:50-57 | the time is 0.1, 0.2 or 5.0. It is below 5 s exactly when the fault current reaches the device's trip multiple (4, 7, 15 for MCB B, C, D; 10 for fuses) of the rating. 0.1 s only for MCBs, 0.2 s only for fuses |
| Protection.RequiredDisconnectionTime | bs7671_with_ze_cs_cd.py:59-60 | the required time is 0.4 or 5.0, and 0.4 exactly when the rating is at most 32 A |
| Protection.MaxZs | bs7671_with_ze_cs_cd.py:32-35 | the limit lies in [0.38, 1.15] ohm; among MCBs only type B has 1.15 |
| Protection.TimeOkAboveThirtyTwo | bs7671_with_ze_cs_cd.py:153-155 | for any rating above 32 A the time check passes, for every device and fault current |
| Protection.TimeOkUpToThirtyTwo | bs7671_with_ze_cs_cd.py:153-155 | up to 32 A the time check passes exactly when the fault current reaches the trip multiple of the rating |
| Compliance.VoltageDrop | bs7671_with_ze_cs_cd.py:139 | the drop is zero for zero length, current or mV/A/m, and non-negative for non-negative inputs |
| Compliance.VoltageDropMonotonic | bs7671_with_ze_cs_cd.py:179-180 | a smaller mV/A/m value never gives a larger drop |
| FullCalculator.DropFallsWithSize | bs7671_with_ze_cs_cd.py:179-180 | on either voltage-drop table a larger size never gives a larger drop |
| Compliance.LoopImpedance | bs7671_with_ze_cs_cd.py:143-145 | Zs is at least Ze for a non-negative length, and is `Ze + 0.036 L/size` up to 16 mm2, where the earth conductor is the line size |
| Compliance.LoopImpedanceFalls | bs7671_with_ze_cs_cd.py:184-186 | a larger conductor never has a larger Zs |
| Compliance.Withstands | bs7671_with_ze_cs_cd.py:148-151 | only a non-negative cross-section withstands a fault, and every one withstands zero fault current |
| Compliance.Evaluate | bs7671_with_ze_cs_cd.py:179-196 | vd_ok iff the drop is at most 5 % of the voltage. Zs_ok iff `Ze + 0.018 L/size + 0.018 L/earth` is within the device limit. earth_sc_ok implies sc_ok. time_ok iff actual <= required, and it always holds above 32 A. Zs >= Ze for a non-negative length |
| Compliance.WithstandsMonotonic | bs7671_with_ze_cs_cd.py:149-151 | a conductor at least as large withstands every fault a smaller one withstands |
| Compliance.WithstandsIsAdiabatic | bs7671_with_ze_cs_cd.py:148-151 | with `root` the square root of I^2 * 0.4, the squared comparison holds exactly when `csa >= root / 115` |
| Compliance.FirstQualifying | bs7671_with_ze_cs_cd.py:172-200 | None exactly when no size from the start position carries the required Iz and passes all five checks. Some(s) when s is such a size and every size before it fails |
| Compliance.LastEvaluated | bs7671_with_ze_cs_cd.py:176-196 | the measured values of the last size, among the first n, that carried the required Iz; None exactly when none did |
| Compliance.AutoSearch | bs7671_with_ze_cs_cd.py:171-200 | the loop's selection is FirstQualifying. On a selection, the capacity (>= required Iz), earth size and measured values are the selected size's. Without one, the measured values are LastEvaluated and the capacity and earth size are the last size's; nothing is set for an empty list |
| Compliance.FirstQualifyingAfter | bs7671_with_ze_cs_cd.py:172-177 | when no size before position i qualifies, the first qualifying size overall is the first from i on |
| Compliance.SmallestCompliant | bs7671_with_ze_cs_cd.py:172-200 | on ascending sizes the selection is one of the sizes. It qualifies and no smaller size does. No selection means no size qualifies |
| Compliance.SortedKeysUnique | bs7671_with_ze_cs_cd.py:110 | two strictly increasing lists with the same elements are equal, so `sorted(keys)` is determined by the key set |
| Compliance.FailedChecks | bs7671_with_ze_cs_cd.py:158-164 | a check is in the list exactly when it failed, each at most once, in the order VD, Zs, SC line, SC earth, time, Iz. The list is empty exactly when all six pass |
| Compliance.CheckFixedSize | bs7671_with_ze_cs_cd.py:133-169 | a missing-key error exactly when the size is absent from the ampacity or voltage-drop table. Otherwise it reports the size's capacity and earth size, its five checks and the Iz comparison. Failures are listed exactly for failed checks, in the order the script appends them, and the list is empty iff all six pass |
| FullCalculator.Keyed | bs7671_with_ze_cs_cd.py:8-29 | a table written as a column is the dictionary sending the i-th size to the i-th value, with exactly the sizes as keys |
| FullCalculator.AmpacityColumn | bs7671_with_ze_cs_cd.py:8-25 | a column exists exactly for methods C and D, one value per size |
| FullCalculator.AmpacityTable | bs7671_with_ze_cs_cd.py:110 | `cable_table[cable_key][method]` exists exactly for methods C and D, keyed by the 22 sizes |
| FullCalculator.VoltageDropTable | bs7671_with_ze_cs_cd.py:28-29 | both voltage-drop tables are keyed by exactly the 22 sizes |
| FullCalculator.SizesAscending | bs7671_with_ze_cs_cd.py:8-29 | the size list is strictly increasing and positive, so it is `sorted(keys)` |
| FullCalculator.SizesAreSortedKeys | bs7671_with_ze_cs_cd.py:110 | any strictly increasing listing of an ampacity table's keys is the size list, so `sorted(keys)` is Sizes |
| FullCalculator.AmpacityColumnAscending | bs7671_with_ze_cs_cd.py:8-25 | every ampacity column rises strictly with the size |
| FullCalculator.VoltageDropColumnsDescending | bs7671_with_ze_cs_cd.py:28-29 | both mV/A/m columns fall strictly with the size |
| FullCalculator.KeyedAscending | bs7671_with_ze_cs_cd.py:8-25 | a rising column gives a dictionary whose value rises with the key |
| FullCalculator.KeyedDescending | bs7671_with_ze_cs_cd.py:28-29 | a falling column gives a dictionary whose value falls as the key rises |
| FullCalculator.TablesConsistent | bs7671_with_ze_cs_cd.py:8-29 | every existing ampacity table strictly increases with size. Both voltage-drop tables strictly decrease. They share the ampacity tables' key set, so the lookup at line 138/179 never misses for a size from `sizes` |
| FullCalculator.CatalogueFor | bs7671_with_ze_cs_cd.py:172-179 | the catalogue the search walks covers every size in both maps, and its sizes are the strictly increasing 22 sizes |
| FullCalculator.AmbientFactor | bs7671_with_ze_cs_cd.py:87-89 | Ca lies in [0.71, 1.03]; it is 1.0 for any temperature that is not a table key and at 30 °C |
| FullCalculator.AmbientFactorLookup | bs7671_with_ze_cs_cd.py:87-89 | within the table, Ca never rises with the temperature, for either material |
| FullCalculator.GroupingFactor | bs7671_with_ze_cs_cd.py:92-93 | Cg lies in [0.57, 1.0]; it is 0.57 for any count not in 1..6; it is 1.0 exactly for one circuit |
| FullCalculator.GroupingFactorNonIncreasing | bs7671_with_ze_cs_cd.py:92-93 | more grouped circuits never get a larger Cg |
| FullCalculator.InsulationFactor | bs7671_with_ze_cs_cd.py:96-105 | Ci is one of 0.89, 0.81, 0.68, 0.55, 0.50, and 0.89 exactly up to 50 mm |
| FullCalculator.InsulationFactorNonIncreasing | bs7671_with_ze_cs_cd.py:96-105 | a longer run in insulation never gets a larger Ci; length 0 gives 0.89 |
| FullCalculator.Correction | bs7671_with_ze_cs_cd.py:121 | the product Ca*Cg*Ci*Cs*Cd of valid inputs is positive, so the division at line 122 is defined |
| FullCalculator.Calculate | bs7671_with_ze_cs_cd.py:110-200 | an error exactly for method E/F (missing key), voltage 0 (division by zero) or a chosen size not in the table. Otherwise Ib, rating, the three factors, the correction and required Iz are the functions above. Auto mode selects FirstQualifying. A selection reports its own capacity, earth size and measured values, and passes Iz and all five checks. Without a selection it reports the last size's capacity and earth size and the measured values of the last size that carried the required Iz (zeros if none), with the Iz indicator passed iff that capacity reaches the required Iz. Fixed mode reports the chosen size's capacity, earth size and measured values, izOk iff capacity >= required Iz, failures exactly for failed checks in append order, and none iff all six pass |
| FullCalculator.CheckChosenSize | bs7671_with_ze_cs_cd.py:131-169 | fixed mode: a missing-key error exactly when the chosen size is not a table size; otherwise the shared heading, and the chosen size's capacity, earth size, measured values, Iz comparison and failed-check list (in append order) as in Calculate |
| FullCalculator.SearchSize | bs7671_with_ze_cs_cd.py:170-200 | auto mode: the shared heading, the selection FirstQualifying, and the capacity, earth size and measured values of the selected size, or of the last size walked and the last size evaluated when none is selected, with the Iz indicator of :220 as that capacity against the required Iz |
| FullCalculator.FiveKilowattRating | bs7671_with_ze_cs_cd.py:115-122 | an Ib with `Ib * 230 == 5000` selects 25 A, and with Ci 0.89 the required Iz lies between 28 and 29 A |
| FullCalculator.PvcSingleCEntries | bs7671_with_ze_cs_cd.py:10-28 | single-core PVC by method C carries 14, 18, 24, 32 A at 1, 1.5, 2.5, 4 mm2; 4 mm2 drops 11 mV/A/m single-phase |
| FullCalculator.FiveKilowattSearch | bs7671_with_ze_cs_cd.py:171-200 | with those entries, 10 m, MCB B, Ze 0.35 ohm and 500 A, the first three sizes are skipped and 4 mm2 passes every check, so it is selected |
| FullCalculator.FiveKilowattCorrection | bs7671_with_ze_cs_cd.py:87-121 | for 30 °C, one circuit, no run in insulation and Cs = Cd = 1 the inputs are valid and the correction is 0.89 |
| FullCalculator.FiveKilowattExample | bs7671_with_ze_cs_cd.py:113-200 | for the 5 kW example, with Ib the design current of the installation's own load, the correction is 0.89, the rating 25 A, and the search selects 4 mm2 single-core PVC cable |
| ReducedCalculator.AmpacityTable | bs7671_streamlit_app_auto_adjust.py:79 | `cable_table[cable_type][method]` has exactly the four catalogue sizes as keys, with ampacities between 24 and 73 A |
| ReducedCalculator.TablesConsistent | bs7671_streamlit_app_auto_adjust.py:8-12 | the size list is strictly increasing and is each table's key set; every key is a voltage-drop key, so line 85 never misses; ampacity rises strictly with size |
| ReducedCalculator.EarthSizeOfCatalogue | bs7671_streamlit_app_auto_adjust.py:22-28 | every catalogue size (2.5-10 mm2) is its own earth conductor size |
| ReducedCalculator.CatalogueFor | bs7671_streamlit_app_auto_adjust.py:72-85 | the searched catalogue covers every size in both maps and is strictly increasing |
| ReducedCalculator.Correction | bs7671_streamlit_app_auto_adjust.py:68 | Ca*Cg*Ci of inputs that are each at least 0.1 is positive |
| ReducedCalculator.FixedZeLoopImpedance | bs7671_streamlit_app_auto_adjust.py:90-93 | with Ze fixed at 0.35 ohm, Zs for a catalogue size is `0.35 + 0.036 * length / size` |
| ReducedCalculator.ThreePhaseDrop | bs7671_streamlit_app_auto_adjust.py:85-86 | the three-phase drop is sqrt(3) times the single-phase formula on the same table, and for the same load it equals the single-phase drop |
| ReducedCalculator.CalculateAsWritten | bs7671_streamlit_app_auto_adjust.py:60-139 | a division-by-zero error for voltage 0, and no other errors except the one below. Otherwise the script stops on an unbound measured value exactly when no size carries the required Iz. When it does not stop, it reports Ib, the rating, the required Iz and the first qualifying size. A selected size comes with its own capacity, earth size and measured values, all passing. Without a selection it reports the 10 mm2 capacity and earth size, the values of the last size that carried the required Iz, and the Iz badge iff that capacity reaches the required Iz |
| ReducedCalculator.Calculate | bs7671_streamlit_app_auto_adjust.py:60-120 | an error exactly for voltage 0. Ib, rating and required Iz are the shared functions, and the selection is FirstQualifying. A selection has the Iz indicator passed, its own table capacity, itself as earth size, its own measured values and all five checks passed. Without a selection it reports the 10 mm2 capacity and earth size, the measured values of the last size that carried the required Iz (zeros if none), and the Iz indicator iff that capacity reaches the required Iz |
| ReducedCalculator.NothingCarriesHundredAmps | bs7671_streamlit_app_auto_adjust.py:9-10 | no table entry reaches 100 A, so a required Iz of 100 A or more skips every size |
| ReducedCalculator.ThirtyKilowattLoad | bs7671_streamlit_app_auto_adjust.py:62-83 | a 30 kW, 230 V, pf 1 single-phase load selects 100 A and needs 100 A with unit factors, and no size carries it |

## Left out

- The Streamlit user interface is not modelled: the input widgets, the
  button, and the rendering of the written results and the compliance
  badges. The inputs are method parameters, and the widgets' bounds are
  the `Valid()` predicates. The values the results and badges show are
  the fields of each `Report`; `izOk` is the "Iz Compliance" badge.
- The time-current curve plot and the Excel export are not modelled. They
  are display and file-format code in libraries outside this model.
- The other scripts of the repository are not part of this model. These are
  Harmonic.py, MaxHarmonicCurrent.py and the animation scripts. They are
  floating-point numerics, plotting and GUI code.
- Floating-point rounding is not modelled: all arithmetic is exact. A
  comparison that floats decide differently at a boundary (for example a
  drop of exactly 5 %) follows the exact value.
- `math.sqrt(3)` is the parameter `sqrt3`. Its existence is not proved, since
  Dafny's reals have no square root.
- `sc_required_size` is irrational in general, so its numeric value is not
  reported. `Measured` keeps only the outcome of the two short-circuit
  comparisons.
- Device types and methods are enumerations, not strings.
  `startswith('MCB')` is `Device.IsMcb`.
- The tables of the fuller calculator are columns aligned with the 22 sizes.
  `FullCalculator.Keyed` turns a column back into the dictionary.
- The chosen size of the fixed-size mode is given as a real. Parsing the
  option string with `float(...)` is not modelled.
- FullCalculator.AmbientFactorLookup: states the ordering only for
  temperatures that are table keys. Ca is not monotonic over all
  temperatures: 36 °C gives 1.0, but 35 °C gives 0.94.

## Findings

| source | as written | input that shows it | evidently intended | confidence | as-written member | corrected member |
|---|---|---|---|---|---|---|
| bs7671_streamlit_app_auto_adjust.py:78-139 | `vd`, `Zs_calc`, `sc_required_size`, `actual_time` and `required_time` are assigned only inside the loop, after the ampacity filter. When no size carries the required Iz they are never bound: the chart at line 139 stops the script with a NameError, and the export at line 157 reads the same unbound names | a 30 kW load at 230 V, pf 1, single phase, Ca = Cg = Ci = 1: Ib is about 130 A, the rating 100 A, the required Iz 100 A, above every table entry (`ReducedCalculator.ThirtyKilowattLoad`) | start the measured values at zero as the fuller calculator does (its line 129) and report "no size found" | not executed | ReducedCalculator.CalculateAsWritten | ReducedCalculator.Calculate |

=== FILE: compliance.dfy ===
/**
 * The per-size compliance checks and the two ways the calculators apply
 * them: the automatic search for the first compliant size, and the check of
 * one chosen size that lists the failed checks.  The tables are parameters:
 * each calculator passes its own ampacity and voltage-drop tables.
 */
module Compliance {
  import opened Wrappers
  import opened Protection

  /** What every size check needs to know about the circuit. */
  datatype Circuit = Circuit(
    phase: Phase,
    sqrt3: real,     // stands for math.sqrt(3)
    ib: real,        // design current, A
    rating: int,     // protective-device rating, A
    voltage: real,   // supply voltage, V
    length: real,    // cable length, m
    ze: real,        // external earth-fault loop impedance, ohm
    device: Device,
    fault: real)     // prospective fault current, A

  /**
   * A cable catalogue: the sizes in the order they are tried, and the
   * ampacity (A) and voltage-drop (mV/A/m) tables keyed by size.
   */
  datatype Catalogue = Catalogue(sizes: seq<real>, ampacity: map<real, int>, mvPerAm: map<real, real>)
  {
    /** Every size walked is positive and has an entry in both tables. */
    predicate Covers()
    {
      forall i :: 0 <= i < |sizes| ==> sizes[i] > 0.0 && sizes[i] in ampacity && sizes[i] in mvPerAm
    }
  }

  /** The outcome of the five checks evaluated for one size. */
  datatype Checks = Checks(vdOk: bool, zsOk: bool, scOk: bool, earthScOk: bool, timeOk: bool)
  {
    predicate AllPass() { vdOk && zsOk && scOk && earthScOk && timeOk }
  }

  /** The measured values of one size's checks and their outcome. */
  datatype Measured = Measured(vd: real, zs: real, actualTime: real, requiredTime: real, checks: Checks)

  /** The values a report shows before any size has been checked. */
  const Unchecked: Measured := Measured(0.0, 0.0, 0.0, 0.0, Checks(false, false, false, false, false))

  /** Voltage drop in volts: mV/A/m * Ib * length / 1000, times sqrt(3) on three phases. */
  function VoltageDrop(c: Circuit, mv: real): (vd: real)
    ensures c.length == 0.0 || c.ib == 0.0 || mv == 0.0 ==> vd == 0.0
    ensures mv >= 0.0 && c.ib >= 0.0 && c.length >= 0.0 && c.sqrt3 > 0.0 ==> vd >= 0.0
  {
    var k := PhaseFactor(c.phase, c.sqrt3);
    assert k * mv * c.ib * c.length == (k * mv) * (c.ib * c.length);
    k * mv * c.ib * c.length / 1000.0
  }

  /**
   * A cable with fewer mV/A/m drops no more voltage: the drop rises with the
   * table value for a non-negative current and length.
   */
  lemma VoltageDropMonotonic(c: Circuit, mv1: real, mv2: real)
    requires 0.0 <= mv1 <= mv2
    requires c.ib >= 0.0 && c.length >= 0.0 && c.sqrt3 > 0.0
    ensures VoltageDrop(c, mv1) <= VoltageDrop(c, mv2)
  {
    var k := PhaseFactor(c.phase, c.sqrt3) * c.ib * c.length / 1000.0;
    assert k >= 0.0 by {
      assert PhaseFactor(c.phase, c.sqrt3) * c.ib >= 0.0;
    }
    assert VoltageDrop(c, mv1) == k * mv1;
    assert VoltageDrop(c, mv2) == k * mv2;
    ScaleMonotonic(k, mv1, mv2);
  }

  /** Multiplying by a non-negative factor keeps the order. */
  lemma ScaleMonotonic(k: real, a: real, b: real)
    requires k >= 0.0 && a <= b
    ensures k * a <= k * b
  {
    assert k * b - k * a == k * (b - a);
  }

  /** Earth-fault loop impedance: Ze plus line and earth conductor resistance (0.018 ohm mm2/m). */
  function LoopImpedance(c: Circuit, size: real): (zs: real)
    requires size > 0.0
    ensures c.length >= 0.0 ==> zs >= c.ze
    ensures size <= 16.0 ==> zs == c.ze + 0.036 * c.length / size
  {
    var earth := EarthConductorSize(size);
    assert c.length >= 0.0 ==> 0.018 * c.length / size >= 0.0 && 0.018 * c.length / earth >= 0.0;
    assert size <= 16.0 ==> 0.018 * c.length / size + 0.018 * c.length / earth == 0.036 * c.length / size;
    c.ze + 0.018 * c.length / size + 0.018 * c.length / earth
  }

  /** A larger conductor never has a larger loop impedance. */
  lemma LoopImpedanceFalls(c: Circuit, s1: real, s2: real)
    requires 0.0 < s1 <= s2 && c.length >= 0.0
    ensures LoopImpedance(c, s2) <= LoopImpedance(c, s1)
  {
    EarthSizeMonotonic(s1, s2);
    QuotientFalls(0.018 * c.length, s1, s2);
    QuotientFalls(0.018 * c.length, EarthConductorSize(s1), EarthConductorSize(s2));
  }

  /** A non-negative numerator over a larger positive denominator gives no more. */
  lemma QuotientFalls(a: real, x: real, y: real)
    requires a >= 0.0 && 0.0 < x <= y
    ensures a / y <= a / x
  {
    var p := a / x;
    assert p >= 0.0;
    assert a / y == p * (x / y);
    assert x / y <= 1.0;
    ScaleMonotonic(p, x / y, 1.0);
  }

  /**
   * The adiabatic check of Regulation 543.1.3 with t = 0.4 s and k = 115:
   * `csa >= sqrt(I^2 * 0.4) / 115`, compared on squares so that no root is
   * taken (see WithstandsIsAdiabatic).  Any conductor withstands no
   * current at all.
   */
  predicate Withstands(csa: real, fault: real)
    ensures Withstands(csa, fault) ==> csa >= 0.0
    ensures csa >= 0.0 && fault == 0.0 ==> Withstands(csa, fault)
  {
    csa >= 0.0 && (115.0 * csa) * (115.0 * csa) >= fault * fault * 0.4
  }

  /** The five checks of one cable size whose voltage drop is `mv` mV/A/m. */
  function Evaluate(c: Circuit, size: real, mv: real): (m: Measured)
    requires size > 0.0
    ensures m.checks.vdOk <==> m.vd <= 0.05 * c.voltage
    ensures m.checks.zsOk <==> LoopImpedance(c, size) <= MaxZs(c.device)
    ensures m.checks.earthScOk ==> m.checks.scOk
    ensures c.rating > 32 ==> m.checks.timeOk
    ensures m.checks.timeOk <==> m.actualTime <= m.requiredTime
    ensures c.length >= 0.0 ==> m.zs >= c.ze
  {
    var earth := EarthConductorSize(size);
    var vd := VoltageDrop(c, mv);
    var zs := LoopImpedance(c, size);
    var actual := DisconnectionTime(c.device, c.fault, c.rating);
    var required := RequiredDisconnectionTime(c.rating);
    WithstandsMonotonic(earth, size, c.fault);
    Measured(vd, zs, actual, required,
      Checks(vd <= c.voltage * 0.05, zs <= MaxZs(c.device), Withstands(size, c.fault), Withstands(earth, c.fault),
        actual <= required))
  }

  /** A larger conductor withstands every fault a smaller one withstands. */
  lemma WithstandsMonotonic(small: real, large: real, fault: real)
    requires small <= large
    ensures Withstands(small, fault) ==> Withstands(large, fault)
  {
    if Withstands(small, fault) {
      SquareMonotonic(115.0 * small, 115.0 * large);
    }
  }

  /** Squaring keeps the order of non-negative reals. */
  lemma SquareMonotonic(a: real, b: real)
    requires 0.0 <= a <= b
    ensures a * a <= b * b
  {
    calc {
      a * a;
    <=
      a * b;
    <=
      b * b;
    }
  }

  /** Squaring keeps the strict order of non-negative reals. */
  lemma SquareStrictlyMonotonic(a: real, b: real)
    requires 0.0 <= a < b
    ensures a * a < b * b
  {
    calc {
      a * a;
    <=
      a * b;
    <
      b * b;
    }
  }

  /**
   * With `root` the square root of I^2 * 0.4, the squared comparison is the
   * source's `csa >= root / 115`.
   */
  lemma WithstandsIsAdiabatic(csa: real, fault: real, root: real)
    requires root >= 0.0 && root * root == fault * fault * 0.4
    ensures Withstands(csa, fault) <==> csa >= root / 115.0
  {
    var a := 115.0 * csa;
    if csa >= root / 115.0 {
      SquareMonotonic(root, a);
    } else if csa >= 0.0 {
      SquareStrictlyMonotonic(a, root);
    }
  }

  /** Size number `i` carries at least the required current. */
  predicate CarriesRequired(cat: Catalogue, requiredIz: real, i: int)
    requires cat.Covers() && 0 <= i < |cat.sizes|
  {
    cat.ampacity[cat.sizes[i]] as real >= requiredIz
  }

  /** Size number `i` carries the required current and passes all five checks. */
  predicate Qualifies(c: Circuit, cat: Catalogue, requiredIz: real, i: int)
    requires cat.Covers() && 0 <= i < |cat.sizes|
  {
    CarriesRequired(cat, requiredIz, i) && Evaluate(c, cat.sizes[i], cat.mvPerAm[cat.sizes[i]]).checks.AllPass()
  }

  /** The first size at or after position `from` that qualifies, if any. */
  function FirstQualifying(c: Circuit, cat: Catalogue, requiredIz: real, from: nat): (r: Option<real>)
    requires cat.Covers() && from <= |cat.sizes|
    ensures r.None? <==> forall j :: from <= j < |cat.sizes| ==> !Qualifies(c, cat, requiredIz, j)
    ensures r.Some? ==> exists k :: (from <= k < |cat.sizes| && cat.sizes[k] == r.value
      && Qualifies(c, cat, requiredIz, k) && forall j :: from <= j < k ==> !Qualifies(c, cat, requiredIz, j))
    decreases |cat.sizes| - from
  {
    if from == |cat.sizes| then None
    else if Qualifies(c, cat, requiredIz, from) then Some(cat.sizes[from])
    else FirstQualifying(c, cat, requiredIz, from + 1)
  }

  /** The measured values of the last of the first `n` sizes that carried the required current. */
  function LastEvaluated(c: Circuit, cat: Catalogue, requiredIz: real, n: nat): (r: Option<Measured>)
    requires cat.Covers() && n <= |cat.sizes|
    ensures r.None? <==> forall j :: 0 <= j < n ==> !CarriesRequired(cat, requiredIz, j)
    ensures r.Some? ==> exists k :: (0 <= k < n && CarriesRequired(cat, requiredIz, k)
      && r.value == Evaluate(c, cat.sizes[k], cat.mvPerAm[cat.sizes[k]])
      && forall j :: k < j < n ==> !CarriesRequired(cat, requiredIz, j))
  {
    if n == 0 then None
    else if CarriesRequired(cat, requiredIz, n - 1) then
      Some(Evaluate(c, cat.sizes[n - 1], cat.mvPerAm[cat.sizes[n - 1]]))
    else LastEvaluated(c, cat, requiredIz, n - 1)
  }

  /**
   * What the search leaves behind: the selected size, and the capacity,
   * earth size and measured values of the iteration it stopped in (None
   * where nothing was ever assigned).
   */
  datatype SearchState = SearchState(
    selected: Option<real>,
    capacity: Option<int>,
    earthSize: Option<real>,
    evaluated: Option<Measured>)

  /**
   * Walk the sizes in order; skip a size whose ampacity is below the
   * required Iz; stop at the first size that passes all five checks.
   */
  method AutoSearch(c: Circuit, cat: Catalogue, requiredIz: real) returns (st: SearchState)
    requires cat.Covers()
    ensures st.selected == FirstQualifying(c, cat, requiredIz, 0)
    ensures st.selected.Some? ==>
      && st.capacity == Some(cat.ampacity[st.selected.value])
      && st.capacity.value as real >= requiredIz
      && st.earthSize == Some(EarthConductorSize(st.selected.value))
      && st.evaluated == Some(Evaluate(c, st.selected.value, cat.mvPerAm[st.selected.value]))
    ensures st.selected.None? ==> st.evaluated == LastEvaluated(c, cat, requiredIz, |cat.sizes|)
    ensures st.selected.None? && cat.sizes != [] ==>
      var last := cat.sizes[|cat.sizes| - 1];
      st.capacity == Some(cat.ampacity[last]) && st.earthSize == Some(EarthConductorSize(last))
    ensures cat.sizes == [] ==> st.capacity == None && st.earthSize == None
  {
    var selected: Option<real> := None;
    var capacity: Option<int> := None;
    var earthSize: Option<real> := None;
    var evaluated: Option<Measured> := None;
    for i := 0 to |cat.sizes|
      invariant forall j :: 0 <= j < i ==> !Qualifies(c, cat, requiredIz, j)
      invariant evaluated == LastEvaluated(c, cat, requiredIz, i)
      invariant i == 0 ==> capacity == None && earthSize == None
      invariant i > 0 ==> (capacity == Some(cat.ampacity[cat.sizes[i - 1]])
        && earthSize == Some(EarthConductorSize(cat.sizes[i - 1])))
      invariant selected == None
    {
      var size := cat.sizes[i];
      capacity := Some(cat.ampacity[size]);
      earthSize := Some(EarthConductorSize(size));
      if (cat.ampacity[size] as real) < requiredIz {
        continue;
      }
      var m := Evaluate(c, size, cat.mvPerAm[size]);
      evaluated := Some(m);
      if m.checks.AllPass() {
        selected := Some(size);
        FirstQualifyingAfter(c, cat, requiredIz, i);
        break;
      }
    }
    if selected.None? {
      FirstQualifyingAfter(c, cat, requiredIz, |cat.sizes|);
    }
    st := SearchState(selected, capacity, earthSize, evaluated);
  }

  /** When no size before position `i` qualifies, the first qualifying size is the first one from `i` on. */
  lemma {:induction false} FirstQualifyingAfter(c: Circuit, cat: Catalogue, requiredIz: real, i: nat)
    requires cat.Covers() && i <= |cat.sizes|
    requires forall j :: 0 <= j < i ==> !Qualifies(c, cat, requiredIz, j)
    ensures FirstQualifying(c, cat, requiredIz, 0) == FirstQualifying(c, cat, requiredIz, i)
    decreases i
  {
    if i > 0 {
      FirstQualifyingAfter(c, cat, requiredIz, i - 1);
    }
  }

  /**
   * On a strictly ascending catalogue the search result is the smallest
   * compliant size: it qualifies and no smaller size does; and there is no
   * result only when no size qualifies.
   */
  lemma SmallestCompliant(c: Circuit, cat: Catalogue, requiredIz: real)
    requires cat.Covers() && StrictlyIncreasing(cat.sizes)
    ensures var r := FirstQualifying(c, cat, requiredIz, 0);
      && (r.Some? ==> r.value in cat.sizes)
      && (r.Some? ==> forall j :: 0 <= j < |cat.sizes| && cat.sizes[j] < r.value ==> !Qualifies(c, cat, requiredIz, j))
      && (r.Some? ==> forall j :: 0 <= j < |cat.sizes| && cat.sizes[j] == r.value ==> Qualifies(c, cat, requiredIz, j))
      && (r.None? ==> forall j :: 0 <= j < |cat.sizes| ==> !Qualifies(c, cat, requiredIz, j))
  {
    var r := FirstQualifying(c, cat, requiredIz, 0);
    if r.Some? {
      var k :| 0 <= k < |cat.sizes| && cat.sizes[k] == r.value
        && Qualifies(c, cat, requiredIz, k) && forall j :: 0 <= j < k ==> !Qualifies(c, cat, requiredIz, j);
      assert forall j :: k < j < |cat.sizes| ==> cat.sizes[k] < cat.sizes[j];
    }
  }

  /**
   * The ascending order of a set of sizes is unique: two strictly
   * increasing sequences with the same elements are equal.  So a table's
   * `sorted(keys)` is any strictly increasing listing of its keys.
   */
  lemma {:induction false} SortedKeysUnique(a: seq<real>, b: seq<real>)
    requires StrictlyIncreasing(a) && StrictlyIncreasing(b)
    requires forall x :: x in a <==> x in b
    ensures a == b
    decreases |a|
  {
    assert b != [] ==> b[0] in b;
    if a != [] {
      assert a[0] in a;
      assert a[0] in b && b != [];
      assert b[0] in a;
      assert a[0] == b[0];
      forall x
        ensures x in a[1..] <==> x in b[1..]
      {
        assert x in a[1..] <==> x in a && x != a[0];
        assert x in b[1..] <==> x in b && x != b[0];
      }
      SortedKeysUnique(a[1..], b[1..]);
      assert a == [a[0]] + a[1..];
      assert b == [b[0]] + b[1..];
    }
  }

  /** The checks the fixed-size mode reports, in the order it reports them. */
  datatype CheckName =
    | VoltageDropCheck | ZsCheck | LineShortCircuitCheck | EarthShortCircuitCheck
    | DisconnectionTimeCheck | IzCheck

  /** Position of a check in the reporting order. */
  function Rank(k: CheckName): nat
  {
    match k
    case VoltageDropCheck => 0
    case ZsCheck => 1
    case LineShortCircuitCheck => 2
    case EarthShortCircuitCheck => 3
    case DisconnectionTimeCheck => 4
    case IzCheck => 5
  }

  /** Whether check `k` passed, given the five size checks and the Iz comparison. */
  predicate Passed(k: CheckName, checks: Checks, izOk: bool)
  {
    match k
    case VoltageDropCheck => checks.vdOk
    case ZsCheck => checks.zsOk
    case LineShortCircuitCheck => checks.scOk
    case EarthShortCircuitCheck => checks.earthScOk
    case DisconnectionTimeCheck => checks.timeOk
    case IzCheck => izOk
  }

  /**
   * The list of failed checks, built by appending each failed check in
   * reporting order: exactly the failed checks, each once, in order.
   */
  method FailedChecks(checks: Checks, izOk: bool) returns (failed: seq<CheckName>)
    ensures forall k :: k in failed <==> !Passed(k, checks, izOk)
    ensures forall i, j :: 0 <= i < j < |failed| ==> Rank(failed[i]) < Rank(failed[j])
    ensures failed == [] <==> checks.AllPass() && izOk
  {
    failed := [];
    if !checks.vdOk { failed := failed + [VoltageDropCheck]; }
    if !checks.zsOk { failed := failed + [ZsCheck]; }
    if !checks.scOk { failed := failed + [LineShortCircuitCheck]; }
    if !checks.earthScOk { failed := failed + [EarthShortCircuitCheck]; }
    if !checks.timeOk { failed := failed + [DisconnectionTimeCheck]; }
    if !izOk { failed := failed + [IzCheck]; }
  }

  /** The outcome of checking one user-chosen size. */
  datatype FixedOutcome = FixedOutcome(capacity: int, earthSize: real, measured: Measured, izOk: bool, failed: seq<CheckName>)

  /**
   * Check one chosen size: look up its ampacity and voltage drop (a missing
   * key is an error), evaluate the five checks and the Iz comparison, and
   * list the failures.
   */
  method CheckFixedSize(c: Circuit, ampacity: map<real, int>, mvPerAm: map<real, real>, requiredIz: real, size: real)
    returns (r: Result<FixedOutcome, Error>)
    requires forall s :: s in ampacity ==> s > 0.0
    ensures r.Err? <==> size !in ampacity || size !in mvPerAm
    ensures r.Err? ==> r.error == MissingTableEntry
    ensures r.Ok? ==>
      && r.value.capacity == ampacity[size]
      && r.value.earthSize == EarthConductorSize(size)
      && r.value.measured == Evaluate(c, size, mvPerAm[size])
      && (r.value.izOk <==> ampacity[size] as real >= requiredIz)
      && (forall k :: k in r.value.failed <==> !Passed(k, r.value.measured.checks, r.value.izOk))
      && (forall i, j :: 0 <= i < j < |r.value.failed| ==> Rank(r.value.failed[i]) < Rank(r.value.failed[j]))
      && (r.value.failed == [] <==> r.value.measured.checks.AllPass() && r.value.izOk)
  {
    if size !in ampacity {
      return Err(MissingTableEntry);
    }
    var capacity := ampacity[size];
    var earth := EarthConductorSize(size);
    if size !in mvPerAm {
      return Err(MissingTableEntry);
    }
    var m := Evaluate(c, size, mvPerAm[size]);
    var izOk := capacity as real >= requiredIz;
    var failed := FailedChecks(m.checks, izOk);
    r := Ok(FixedOutcome(capacity, earth, m, izOk, failed));
  }
}

=== FILE: full_calculator.dfy ===
/**
 * The fuller BS 7671 cable-sizing calculator: tables for cross-sections
 * from 1 mm2 to 1000 mm2, correction factors looked up from the ambient
 * temperature, grouping and thermal-insulation length, a user-given Ze, and
 * two modes -- check one chosen size, or search for the smallest size that
 * passes every check.
 */
module FullCalculator {
  import opened Wrappers
  import opened Protection
  import opened Compliance

  datatype Material = Pvc | Xlpe
  datatype Construction = SingleCore | Multicore
  /** Installation methods offered; only C and D have ampacity tables. */
  datatype InstallMethod = C | D | E | F

  /** The cross-sections (mm2) every table is keyed by, ascending. */
  const Sizes: seq<real> := [1.0, 1.5, 2.5, 4.0, 6.0, 10.0, 16.0, 25.0, 35.0, 50.0, 70.0, 95.0,
                             120.0, 150.0, 185.0, 240.0, 300.0, 400.0, 500.0, 630.0, 800.0, 1000.0]

  // Each table of the source is a dictionary from the sizes above to a
  // value; every one lists the same 22 sizes in the same order, so each is
  // written here as its column of values (see Keyed).

  const PvcSingleC: seq<int> := [14, 18, 24, 32, 41, 57, 76, 101, 125, 150, 192, 232, 269, 309, 356, 415, 476, 546, 615, 700, 780, 850]
  const PvcSingleD: seq<int> := [13, 16, 21, 28, 36, 50, 66, 87, 106, 130, 167, 202, 234, 270, 310, 360, 410, 470, 530, 600, 670, 730]
  const PvcMulticoreC: seq<int> := [13, 16, 21, 28, 36, 50, 66, 87, 106, 130, 167, 202, 234, 270, 310, 360, 410, 470, 530, 600, 670, 730]
  const PvcMulticoreD: seq<int> := [12, 15, 19, 26, 34, 47, 62, 82, 100, 123, 155, 188, 218, 250, 285, 330, 375, 430, 480, 540, 600, 650]
  const XlpeSingleC: seq<int> := [16, 20, 27, 36, 46, 63, 85, 113, 141, 170, 215, 260, 300, 345, 395, 460, 520, 600, 680, 770, 850, 930]
  const XlpeSingleD: seq<int> := [15, 19, 25, 33, 42, 58, 78, 103, 128, 155, 195, 235, 270, 310, 355, 410, 465, 530, 590, 660, 730, 800]
  const XlpeMulticoreC: seq<int> := [15, 19, 25, 33, 42, 58, 78, 103, 128, 155, 195, 235, 270, 310, 355, 410, 465, 530, 590, 660, 730, 800]
  const XlpeMulticoreD: seq<int> := [14, 18, 24, 31, 40, 55, 74, 98, 122, 148, 185, 222, 255, 290, 330, 380, 430, 490, 540, 600, 660, 720]
  /** Single-phase voltage drop, mV/A/m. */
  const VoltageDropSingle: seq<real> := [44.0, 29.0, 18.0, 11.0, 7.3, 4.4, 2.8, 1.75, 1.25, 0.95, 0.68, 0.52, 0.42, 0.36, 0.32, 0.27, 0.23, 0.20, 0.18, 0.16, 0.14, 0.12]
  /** Three-phase voltage drop, mV/A/m. */
  const VoltageDropThree: seq<real> := [38.0, 25.0, 15.0, 9.5, 6.4, 3.8, 2.4, 1.5, 1.1, 0.85, 0.61, 0.47, 0.38, 0.33, 0.29, 0.25, 0.21, 0.18, 0.16, 0.14, 0.12, 0.10]

  /** The dictionary `{Sizes[i]: column[i]}` that a column stands for. */
  function Keyed<V>(column: seq<V>): (t: map<real, V>)
    requires |column| == |Sizes|
    ensures forall i :: 0 <= i < |Sizes| ==> Sizes[i] in t && t[Sizes[i]] == column[i]
    ensures forall s :: s in t <==> s in Sizes
  {
    SizesAscending();
    map i | 0 <= i < |Sizes| :: Sizes[i] := column[i]
  }

  /** The ampacity column of `cable_table[cable_key][method]`: None where the method has no table. */
  function AmpacityColumn(material: Material, construction: Construction, install: InstallMethod): (col: Option<seq<int>>)
    ensures col.Some? <==> install.C? || install.D?
    ensures col.Some? ==> |col.value| == |Sizes|
  {
    match (material, construction, install)
    case (Pvc, SingleCore, C) => Some(PvcSingleC)
    case (Pvc, SingleCore, D) => Some(PvcSingleD)
    case (Pvc, Multicore, C) => Some(PvcMulticoreC)
    case (Pvc, Multicore, D) => Some(PvcMulticoreD)
    case (Xlpe, SingleCore, C) => Some(XlpeSingleC)
    case (Xlpe, SingleCore, D) => Some(XlpeSingleD)
    case (Xlpe, Multicore, C) => Some(XlpeMulticoreC)
    case (Xlpe, Multicore, D) => Some(XlpeMulticoreD)
    case _ => None
  }

  /** `cable_table[cable_key][method]`: None (a KeyError) for methods E and F. */
  function AmpacityTable(material: Material, construction: Construction, install: InstallMethod): (t: Option<map<real, int>>)
    ensures t.Some? <==> install.C? || install.D?
    ensures t.Some? ==> forall s :: s in t.value <==> s in Sizes
  {
    var col := AmpacityColumn(material, construction, install);
    if col.Some? then Some(Keyed(col.value)) else None
  }

  /** The voltage-drop table the phase selects. */
  function VoltageDropTable(phase: Phase): (t: map<real, real>)
    ensures forall s :: s in t <==> s in Sizes
  {
    Keyed(if phase == Single then VoltageDropSingle else VoltageDropThree)
  }

  /** Sizes is ascending and positive, so it is `sorted(...keys())` of every table. */
  lemma SizesAscending()
    ensures StrictlyIncreasing(Sizes)
    ensures forall i :: 0 <= i < |Sizes| ==> Sizes[i] > 0.0
    ensures forall s :: s in Sizes ==> s > 0.0
  {
  }

  /**
   * `sorted(cable_table[cable_key][method].keys())` is Sizes: any strictly
   * increasing listing of a table's keys is that list.
   */
  lemma SizesAreSortedKeys(material: Material, construction: Construction, install: InstallMethod, keys: seq<real>)
    requires install.C? || install.D?
    requires StrictlyIncreasing(keys)
    requires forall s :: s in keys <==> s in AmpacityTable(material, construction, install).value
    ensures keys == Sizes
  {
    SizesAscending();
    SortedKeysUnique(keys, Sizes);
  }

  /** Real-valued columns in strictly descending order. */
  predicate Descending(col: seq<real>)
  {
    forall i, j :: 0 <= i < j < |col| ==> col[i] > col[j]
  }

  lemma PvcSingleAscending()
    ensures Ascending(PvcSingleC) && Ascending(PvcSingleD)
  {
  }

  lemma PvcMulticoreAscending()
    ensures Ascending(PvcMulticoreC) && Ascending(PvcMulticoreD)
  {
  }

  lemma XlpeSingleAscending()
    ensures Ascending(XlpeSingleC) && Ascending(XlpeSingleD)
  {
  }

  lemma XlpeMulticoreAscending()
    ensures Ascending(XlpeMulticoreC) && Ascending(XlpeMulticoreD)
  {
  }

  /** The ampacity column of every installation method that has one rises strictly with the size. */
  lemma AmpacityColumnAscending(material: Material, construction: Construction, install: InstallMethod)
    requires install.C? || install.D?
    ensures Ascending(AmpacityColumn(material, construction, install).value)
  {
    match (material, construction)
    case (Pvc, SingleCore) => PvcSingleAscending();
    case (Pvc, Multicore) => PvcMulticoreAscending();
    case (Xlpe, SingleCore) => XlpeSingleAscending();
    case (Xlpe, Multicore) => XlpeMulticoreAscending();
  }

  /** Both voltage-drop columns fall strictly with the size. */
  lemma VoltageDropColumnsDescending()
    ensures Descending(VoltageDropSingle) && Descending(VoltageDropThree)
  {
  }

  /** A strictly ascending column gives a dictionary whose values rise with the key. */
  lemma KeyedAscending(col: seq<int>)
    requires |col| == |Sizes| && Ascending(col)
    ensures var t := Keyed(col);
      forall s1, s2 :: s1 in t && s2 in t && s1 < s2 ==> t[s1] < t[s2]
  {
    SizesAscending();
    KeyedRises(Sizes, col, Keyed(col));
  }

  /** A map that pairs strictly increasing keys with a strictly ascending column rises with the key. */
  lemma KeyedRises(keys: seq<real>, col: seq<int>, t: map<real, int>)
    requires StrictlyIncreasing(keys) && |col| == |keys| && Ascending(col)
    requires forall i :: 0 <= i < |keys| ==> keys[i] in t && t[keys[i]] == col[i]
    requires forall s :: s in t ==> s in keys
    ensures forall s1, s2 :: s1 in t && s2 in t && s1 < s2 ==> t[s1] < t[s2]
  {
    forall s1, s2 | s1 in t && s2 in t && s1 < s2
      ensures t[s1] < t[s2]
    {
      var i :| 0 <= i < |keys| && keys[i] == s1;
      var j :| 0 <= j < |keys| && keys[j] == s2;
      assert i < j;
    }
  }

  /** A strictly descending column gives a dictionary whose values fall as the key rises. */
  lemma KeyedDescending(col: seq<real>)
    requires |col| == |Sizes| && Descending(col)
    ensures var t := Keyed(col);
      forall s1, s2 :: s1 in t && s2 in t && s1 < s2 ==> t[s1] > t[s2]
  {
    SizesAscending();
    KeyedFalls(Sizes, col, Keyed(col));
  }

  /**
   * On either voltage-drop table a larger conductor never drops more: the
   * falling mV/A/m column combined with VoltageDropMonotonic.
   */
  lemma DropFallsWithSize(c: Circuit, phase: Phase, s1: real, s2: real)
    requires s1 in Sizes && s2 in Sizes && s1 < s2
    requires c.ib >= 0.0 && c.length >= 0.0 && c.sqrt3 > 0.0
    ensures VoltageDrop(c, VoltageDropTable(phase)[s2]) <= VoltageDrop(c, VoltageDropTable(phase)[s1])
  {
    VoltageDropColumnsDescending();
    if phase == Single {
      KeyedDropFalls(c, VoltageDropSingle, s1, s2);
    } else {
      KeyedDropFalls(c, VoltageDropThree, s1, s2);
    }
  }

  /** The same for any falling column of positive mV/A/m values. */
  lemma KeyedDropFalls(c: Circuit, col: seq<real>, s1: real, s2: real)
    requires |col| == |Sizes| && Descending(col) && col[|col| - 1] > 0.0
    requires s1 in Sizes && s2 in Sizes && s1 < s2
    requires c.ib >= 0.0 && c.length >= 0.0 && c.sqrt3 > 0.0
    ensures VoltageDrop(c, Keyed(col)[s2]) <= VoltageDrop(c, Keyed(col)[s1])
  {
    SizesAscending();
    var t := Keyed(col);
    KeyedFalls(Sizes, col, t);
    var j :| 0 <= j < |Sizes| && Sizes[j] == s2;
    assert t[s2] == col[j];
    assert j < |col| - 1 ==> col[j] > col[|col| - 1];
    VoltageDropMonotonic(c, t[s2], t[s1]);
  }

  /** A map that pairs strictly increasing keys with a strictly descending column falls as the key rises. */
  lemma KeyedFalls(keys: seq<real>, col: seq<real>, t: map<real, real>)
    requires StrictlyIncreasing(keys) && |col| == |keys| && Descending(col)
    requires forall i :: 0 <= i < |keys| ==> keys[i] in t && t[keys[i]] == col[i]
    requires forall s :: s in t ==> s in keys
    ensures forall s1, s2 :: s1 in t && s2 in t && s1 < s2 ==> t[s1] > t[s2]
  {
    forall s1, s2 | s1 in t && s2 in t && s1 < s2
      ensures t[s1] > t[s2]
    {
      var i :| 0 <= i < |keys| && keys[i] == s1;
      var j :| 0 <= j < |keys| && keys[j] == s2;
      assert i < j;
    }
  }

  /**
   * Every ampacity table that exists rises strictly with the size, both
   * voltage-drop tables fall strictly with it, and all of them have the
   * sizes of `sorted(cable_table[cable_key][method].keys())` as keys, so the
   * voltage-drop lookup never misses for a size taken from them.
   */
  lemma TablesConsistent(material: Material, construction: Construction, install: InstallMethod, phase: Phase)
    requires install.C? || install.D?
    ensures var t := AmpacityTable(material, construction, install).value;
      forall s1, s2 :: s1 in t && s2 in t && s1 < s2 ==> t[s1] < t[s2]
    ensures var v := VoltageDropTable(phase);
      forall s1, s2 :: s1 in v && s2 in v && s1 < s2 ==> v[s1] > v[s2]
    ensures AmpacityTable(material, construction, install).value.Keys == VoltageDropTable(phase).Keys
  {
    var col := AmpacityColumn(material, construction, install).value;
    AmpacityColumnAscending(material, construction, install);
    KeyedAscending(col);
    var vcol := if phase == Single then VoltageDropSingle else VoltageDropThree;
    VoltageDropColumnsDescending();
    KeyedDescending(vcol);
    assert AmpacityTable(material, construction, install).value == Keyed(col);
    assert VoltageDropTable(phase) == Keyed(vcol);
    SameKeys(col, vcol);
  }

  lemma SameKeys<U, V>(a: seq<U>, b: seq<V>)
    requires |a| == |Sizes| && |b| == |Sizes|
    ensures Keyed(a).Keys == Keyed(b).Keys
  {
    assert forall s :: s in Keyed(a).Keys <==> s in Keyed(b).Keys;
  }

  /** The catalogue searched for an installation method that has a table. */
  function CatalogueFor(material: Material, construction: Construction, install: InstallMethod, phase: Phase): (cat: Catalogue)
    requires install.C? || install.D?
    ensures cat.Covers() && StrictlyIncreasing(cat.sizes)
    ensures cat.sizes == Sizes
  {
    SizesAscending();
    Catalogue(Sizes, AmpacityTable(material, construction, install).value, VoltageDropTable(phase))
  }

  /** Ambient-temperature factor Ca per degree C, PVC insulation. */
  const CaPvc: map<int, real> := map[25 := 1.03, 30 := 1.00, 35 := 0.94, 40 := 0.87, 45 := 0.79, 50 := 0.71]
  /** Ambient-temperature factor Ca per degree C, XLPE insulation. */
  const CaXlpe: map<int, real> := map[25 := 1.02, 30 := 1.00, 35 := 0.96, 40 := 0.91, 45 := 0.87, 50 := 0.82]
  /** Grouping factor Cg per number of grouped circuits. */
  const CgTable: map<int, real> := map[1 := 1.00, 2 := 0.80, 3 := 0.70, 4 := 0.65, 5 := 0.60, 6 := 0.57]

  /** Python's `m.get(k, default)`. */
  function Get<K, V>(m: map<K, V>, k: K, default: V): V
  {
    if k in m then m[k] else default
  }

  /**
   * Ca: the exact-key entry for the ambient temperature in the material's
   * table, 1.0 for any temperature that is not a key.
   */
  function AmbientFactor(material: Material, temperature: int): (ca: real)
    ensures 0.71 <= ca <= 1.03
    ensures temperature !in CaPvc ==> ca == 1.0
    ensures temperature == 30 ==> ca == 1.0
  {
    if material == Pvc then Get(CaPvc, temperature, 1.0) else Get(CaXlpe, temperature, 1.0)
  }

  /** Cg: the entry for 1 to 6 grouped circuits, 0.57 for any other count. */
  function GroupingFactor(circuits: int): (cg: real)
    ensures 0.57 <= cg <= 1.0
    ensures circuits !in CgTable ==> cg == 0.57
    ensures cg == 1.0 <==> circuits == 1
  {
    Get(CgTable, circuits, 0.57)
  }

  /** Ci: one of five bands of the length (mm) run in thermal insulation. */
  function InsulationFactor(insulationLength: int): (ci: real)
    ensures ci == 0.89 || ci == 0.81 || ci == 0.68 || ci == 0.55 || ci == 0.50
    ensures ci == 0.89 <==> insulationLength <= 50
  {
    if insulationLength <= 50 then 0.89
    else if insulationLength <= 100 then 0.81
    else if insulationLength <= 200 then 0.68
    else if insulationLength <= 400 then 0.55
    else 0.50
  }

  /** A longer run in insulation never gets a larger factor; no run at all gets 0.89. */
  lemma InsulationFactorNonIncreasing(l1: int, l2: int)
    requires l1 <= l2
    ensures InsulationFactor(l1) >= InsulationFactor(l2)
    ensures InsulationFactor(0) == 0.89
  {
  }

  /** More grouped circuits never get a larger factor. */
  lemma GroupingFactorNonIncreasing(n1: int, n2: int)
    requires 1 <= n1 <= n2
    ensures GroupingFactor(n1) >= GroupingFactor(n2)
  {
  }

  /** Within its table Ca falls as the temperature rises; off the table it is 1.0. */
  lemma AmbientFactorLookup(material: Material, t1: int, t2: int)
    requires t1 in CaPvc && t2 in CaPvc && t1 <= t2
    ensures AmbientFactor(material, t1) >= AmbientFactor(material, t2)
  {
  }

  /** The inputs of one calculation; `userSize` None stands for "Auto". */
  datatype Installation = Installation(
    power: real, voltage: real, pf: real, length: real, phase: Phase,
    material: Material, construction: Construction, install: InstallMethod, device: Device,
    ambientTemp: int, numCircuits: int, insulationLength: int,
    cs: real, cd: real, fault: real, ze: real,
    userSize: Option<real>)
  {
    /** The bounds the input widgets enforce. */
    predicate Valid()
    {
      && power >= 0.0 && voltage >= 0.0 && 0.1 <= pf <= 1.0 && length >= 0.0
      && ambientTemp >= 0 && numCircuits >= 1 && insulationLength >= 0
      && cs >= 0.1 && cd >= 0.1 && fault >= 0.0 && ze >= 0.0
    }
  }

  /** Everything the calculator reports for one calculation. */
  datatype Report = Report(
    ib: real, rating: int,
    ca: real, cg: real, ci: real, correction: real, requiredIz: real,
    selected: Option<real>, capacity: Option<int>, earthSize: Option<real>,
    measured: Measured,
    izOk: bool,                         // the "Iz Compliance" indicator
    failed: Option<seq<CheckName>>)     // the failed checks, fixed-size mode only

  /** The circuit the checks see for an installation. */
  function CircuitOf(inst: Installation, sqrt3: real, ib: real, rating: int): Circuit
  {
    Circuit(inst.phase, sqrt3, ib, rating, inst.voltage, inst.length, inst.ze, inst.device, inst.fault)
  }

  /** Ca * Cg * Ci * Cs * Cd of an installation. */
  function Correction(inst: Installation): (k: real)
    requires inst.Valid()
    ensures k > 0.0
  {
    var ca, cg, ci := AmbientFactor(inst.material, inst.ambientTemp), GroupingFactor(inst.numCircuits),
      InsulationFactor(inst.insulationLength);
    PositiveProduct(ca, cg, ci, inst.cs, inst.cd);
    ca * cg * ci * inst.cs * inst.cd
  }

  lemma PositiveProduct(a: real, b: real, c: real, d: real, e: real)
    requires a > 0.0 && b > 0.0 && c > 0.0 && d > 0.0 && e > 0.0
    ensures a * b * c * d * e > 0.0
  {
    assert a * b > 0.0;
    assert a * b * c > 0.0;
    assert a * b * c * d > 0.0;
  }

  /**
   * The part of a report every mode shares: Ib, the rating, the three looked-up
   * factors, the correction and the required Iz.
   */
  predicate Heading(inst: Installation, ib: real, rep: Report)
    requires inst.Valid()
  {
    && rep.ib == ib
    && rep.rating == SelectRating(ib)
    && rep.ca == AmbientFactor(inst.material, inst.ambientTemp)
    && rep.cg == GroupingFactor(inst.numCircuits)
    && rep.ci == InsulationFactor(inst.insulationLength)
    && rep.correction == Correction(inst)
    && rep.requiredIz == RequiredIz(rep.rating, rep.correction)
  }

  /**
   * One press of "Calculate": look up the size table (methods E and F have
   * none), compute Ib, the rating and the required Iz, then either check
   * the chosen size or search for the smallest compliant one.
   */
  method Calculate(inst: Installation, sqrt3: real) returns (r: Result<Report, Error>)
    requires inst.Valid()
    requires sqrt3 > 0.0 && sqrt3 * sqrt3 == 3.0
    ensures r.Err? <==> (inst.install.E? || inst.install.F? || inst.voltage == 0.0
      || (inst.userSize.Some? && inst.userSize.value !in Sizes))
    ensures (inst.install.E? || inst.install.F?) ==> r == Err(MissingTableEntry)
    ensures (inst.install.C? || inst.install.D?) && inst.voltage == 0.0 ==> r == Err(DivisionByZero)
    ensures r.Ok? ==>
      && DesignCurrent(inst.power, inst.voltage, inst.pf, inst.phase, sqrt3) == Ok(r.value.ib)
      && r.value.rating == SelectRating(r.value.ib)
      && r.value.ca == AmbientFactor(inst.material, inst.ambientTemp)
      && r.value.cg == GroupingFactor(inst.numCircuits)
      && r.value.ci == InsulationFactor(inst.insulationLength)
      && r.value.correction == Correction(inst)
      && r.value.requiredIz == RequiredIz(r.value.rating, r.value.correction)
    ensures r.Ok? && inst.userSize.None? ==>
      && r.value.failed.None?
      && r.value.selected == FirstQualifying(CircuitOf(inst, sqrt3, r.value.ib, r.value.rating),
           CatalogueFor(inst.material, inst.construction, inst.install, inst.phase), r.value.requiredIz, 0)
    ensures r.Ok? && inst.userSize.None? && r.value.selected.Some? ==>
      var size := r.value.selected.value;
      && size in Sizes && size > 0.0
      && r.value.capacity == Some(AmpacityTable(inst.material, inst.construction, inst.install).value[size])
      && r.value.earthSize == Some(EarthConductorSize(size))
      && r.value.measured == Evaluate(CircuitOf(inst, sqrt3, r.value.ib, r.value.rating), size,
           VoltageDropTable(inst.phase)[size])
      && r.value.izOk && r.value.measured.checks.AllPass()
    ensures r.Ok? && inst.userSize.None? && r.value.selected.None? ==>
      var last := Sizes[|Sizes| - 1];
      var evaluated := LastEvaluated(CircuitOf(inst, sqrt3, r.value.ib, r.value.rating),
        CatalogueFor(inst.material, inst.construction, inst.install, inst.phase), r.value.requiredIz, |Sizes|);
      && r.value.capacity == Some(AmpacityTable(inst.material, inst.construction, inst.install).value[last])
      && r.value.earthSize == Some(EarthConductorSize(last))
      && r.value.measured == (if evaluated.Some? then evaluated.value else Unchecked)
      && (r.value.izOk <==> r.value.capacity.value as real >= r.value.requiredIz)
    ensures r.Ok? && inst.userSize.Some? ==>
      var size := inst.userSize.value;
      && size in Sizes && size > 0.0
      && r.value.selected == inst.userSize
      && r.value.capacity == Some(AmpacityTable(inst.material, inst.construction, inst.install).value[size])
      && r.value.earthSize == Some(EarthConductorSize(size))
      && r.value.measured == Evaluate(CircuitOf(inst, sqrt3, r.value.ib, r.value.rating), size,
           VoltageDropTable(inst.phase)[size])
      && (r.value.izOk <==> r.value.capacity.value as real >= r.value.requiredIz)
      && r.value.failed.Some?
      && (forall k :: k in r.value.failed.value <==> !Passed(k, r.value.measured.checks, r.value.izOk))
      && (forall i, j :: 0 <= i < j < |r.value.failed.value| ==>
            Rank(r.value.failed.value[i]) < Rank(r.value.failed.value[j]))
      && (r.value.failed.value == [] <==> r.value.measured.checks.AllPass() && r.value.izOk)
  {
    var table := AmpacityTable(inst.material, inst.construction, inst.install);
    if table.None? {
      return Err(MissingTableEntry);
    }
    var ibResult := DesignCurrent(inst.power, inst.voltage, inst.pf, inst.phase, sqrt3);
    if ibResult.Err? {
      return Err(ibResult.error);
    }
    match inst.userSize {
      case Some(size) =>
        r := CheckChosenSize(inst, sqrt3, ibResult.value, size);
      case None =>
        var rep := SearchSize(inst, sqrt3, ibResult.value);
        r := Ok(rep);
    }
  }

  /** Fixed-size mode: the report for the size the user chose. */
  method CheckChosenSize(inst: Installation, sqrt3: real, ib: real, size: real) returns (r: Result<Report, Error>)
    requires inst.Valid() && (inst.install.C? || inst.install.D?)
    requires sqrt3 > 0.0 && sqrt3 * sqrt3 == 3.0
    ensures r.Err? <==> size !in Sizes
    ensures r.Err? ==> r.error == MissingTableEntry
    ensures r.Ok? ==>
      && Heading(inst, ib, r.value)
      && size in Sizes && size > 0.0
      && r.value.selected == Some(size)
      && r.value.capacity == Some(AmpacityTable(inst.material, inst.construction, inst.install).value[size])
      && r.value.earthSize == Some(EarthConductorSize(size))
      && r.value.measured == Evaluate(CircuitOf(inst, sqrt3, ib, r.value.rating), size, VoltageDropTable(inst.phase)[size])
      && (r.value.izOk <==> r.value.capacity.value as real >= r.value.requiredIz)
      && r.value.failed.Some?
      && (forall k :: k in r.value.failed.value <==> !Passed(k, r.value.measured.checks, r.value.izOk))
      && (forall i, j :: 0 <= i < j < |r.value.failed.value| ==>
            Rank(r.value.failed.value[i]) < Rank(r.value.failed.value[j]))
      && (r.value.failed.value == [] <==> r.value.measured.checks.AllPass() && r.value.izOk)
  {
    var rating := SelectRating(ib);
    var correction := Correction(inst);
    var requiredIz := RequiredIz(rating, correction);
    var table := AmpacityTable(inst.material, inst.construction, inst.install).value;
    var mv := VoltageDropTable(inst.phase);
    SizesAscending();
    var outcome := CheckFixedSize(CircuitOf(inst, sqrt3, ib, rating), table, mv, requiredIz, size);
    if outcome.Err? {
      return Err(outcome.error);
    }
    var o := outcome.value;
    r := Ok(Report(ib, rating, AmbientFactor(inst.material, inst.ambientTemp), GroupingFactor(inst.numCircuits),
      InsulationFactor(inst.insulationLength), correction, requiredIz, Some(size), Some(o.capacity),
      Some(o.earthSize), o.measured, o.izOk, Some(o.failed)));
  }

  /** Auto mode: the report after searching for the smallest compliant size. */
  method SearchSize(inst: Installation, sqrt3: real, ib: real) returns (rep: Report)
    requires inst.Valid() && (inst.install.C? || inst.install.D?)
    requires sqrt3 > 0.0 && sqrt3 * sqrt3 == 3.0
    ensures Heading(inst, ib, rep)
    ensures rep.failed.None?
    ensures rep.selected == FirstQualifying(CircuitOf(inst, sqrt3, ib, rep.rating),
      CatalogueFor(inst.material, inst.construction, inst.install, inst.phase), rep.requiredIz, 0)
    ensures rep.selected.Some? ==>
      var size := rep.selected.value;
      && size in Sizes && size > 0.0
      && rep.capacity == Some(AmpacityTable(inst.material, inst.construction, inst.install).value[size])
      && rep.earthSize == Some(EarthConductorSize(size))
      && rep.measured == Evaluate(CircuitOf(inst, sqrt3, ib, rep.rating), size, VoltageDropTable(inst.phase)[size])
      && rep.izOk && rep.measured.checks.AllPass()
    ensures rep.selected.None? ==>
      var last := Sizes[|Sizes| - 1];
      var evaluated := LastEvaluated(CircuitOf(inst, sqrt3, ib, rep.rating),
        CatalogueFor(inst.material, inst.construction, inst.install, inst.phase), rep.requiredIz, |Sizes|);
      && rep.capacity == Some(AmpacityTable(inst.material, inst.construction, inst.install).value[last])
      && rep.earthSize == Some(EarthConductorSize(last))
      && rep.measured == (if evaluated.Some? then evaluated.value else Unchecked)
      && (rep.izOk <==> rep.capacity.value as real >= rep.requiredIz)
  {
    var rating := SelectRating(ib);
    var correction := Correction(inst);
    var requiredIz := RequiredIz(rating, correction);
    var circuit := CircuitOf(inst, sqrt3, ib, rating);
    var cat := CatalogueFor(inst.material, inst.construction, inst.install, inst.phase);
    assert cat.ampacity == AmpacityTable(inst.material, inst.construction, inst.install).value;
    assert cat.mvPerAm == VoltageDropTable(inst.phase) && cat.sizes == Sizes;
    var st := AutoSearch(circuit, cat, requiredIz);
    if st.selected.Some? {
      SmallestCompliant(circuit, cat, requiredIz);
      SizesAscending();
    }
    var measured := if st.evaluated.Some? then st.evaluated.value else Unchecked;
    var izOk := st.capacity.Some? && st.capacity.value as real >= requiredIz;
    rep := Report(ib, rating, AmbientFactor(inst.material, inst.ambientTemp), GroupingFactor(inst.numCircuits),
      InsulationFactor(inst.insulationLength), correction, requiredIz, st.selected, st.capacity,
      st.earthSize, measured, izOk, None);
  }

  /**
   * A 5 kW single-phase load at 230 V and pf 1 (Ib about 21.7 A) gets a
   * 25 A device; with no run in insulation Ci is 0.89, so the required Iz
   * is about 28.1 A.
   */
  lemma FiveKilowattRating(ib: real)
    requires ib * 230.0 == 5000.0
    ensures SelectRating(ib) == 25
    ensures 28.0 < RequiredIz(25, 0.89) < 29.0
  {
    var r := SelectRating(ib);
    assert 21.0 < ib < 22.0;
    assert r <= 25 by {
      assert StandardRatings[4] == 25;
      assert 25 in StandardRatings && 25 as real >= ib;
    }
    assert r > 21;
    OnlyTwentyFiveBetween(r);
    var iz := RequiredIz(25, 0.89);
    assert iz * 0.89 == 25.0;
  }

  /** No standard rating lies strictly between 21 A and 25 A. */
  lemma OnlyTwentyFiveBetween(r: int)
    requires r in StandardRatings && 21 < r <= 25
    ensures r == 25
  {
  }

  /** The columns searched for single-core PVC by method C, single phase, at 1 to 4 mm2. */
  lemma PvcSingleCEntries(cat: Catalogue)
    requires cat == CatalogueFor(Pvc, SingleCore, C, Single)
    ensures cat.sizes[3] == 4.0
    ensures cat.ampacity[cat.sizes[0]] == 14 && cat.ampacity[cat.sizes[1]] == 18 && cat.ampacity[cat.sizes[2]] == 24
    ensures cat.ampacity[cat.sizes[3]] == 32 && cat.mvPerAm[cat.sizes[3]] == 11.0
  {
    PvcSingleCTables();
    PvcSingleCFirstEntries(PvcSingleC, VoltageDropSingle);
  }

  lemma PvcSingleCTables()
    ensures CatalogueFor(Pvc, SingleCore, C, Single).ampacity == Keyed(PvcSingleC)
    ensures CatalogueFor(Pvc, SingleCore, C, Single).mvPerAm == Keyed(VoltageDropSingle)
  {
  }

  lemma PvcSingleCFirstEntries(amp: seq<int>, mv: seq<real>)
    requires amp == PvcSingleC && mv == VoltageDropSingle
    ensures |amp| == |Sizes| == |mv| && Sizes[3] == 4.0
    ensures Keyed(amp)[Sizes[0]] == 14 && Keyed(amp)[Sizes[1]] == 18 && Keyed(amp)[Sizes[2]] == 24
    ensures Keyed(amp)[Sizes[3]] == 32 && Keyed(mv)[Sizes[3]] == 11.0
  {
    KeyedEntry(amp, 0);
    KeyedEntry(amp, 1);
    KeyedEntry(amp, 2);
    KeyedEntry(amp, 3);
    KeyedEntry(mv, 3);
  }

  lemma KeyedEntry<V>(column: seq<V>, i: int)
    requires |column| == |Sizes| && 0 <= i < |Sizes|
    ensures Sizes[i] in Keyed(column) && Keyed(column)[Sizes[i]] == column[i]
  {
  }

  /**
   * For that load over 10 m of cable on an MCB type B, with Ze 0.35 ohm and
   * 500 A of fault current: sizes carrying 14, 18 and 24 A are too small for
   * the required Iz and a 4 mm2 size carrying 32 A at 11 mV/A/m passes every
   * check, so the search selects 4 mm2.
   */
  lemma FiveKilowattSearch(c: Circuit, cat: Catalogue, iz: real)
    requires c.phase == Single && c.ib * 230.0 == 5000.0 && c.rating == 25 && c.voltage == 230.0
    requires c.length == 10.0 && c.ze == 0.35 && c.device == McbB && c.fault == 500.0
    requires 28.0 < iz < 29.0
    requires cat.Covers() && |cat.sizes| >= 4 && cat.sizes[3] == 4.0
    requires cat.ampacity[cat.sizes[0]] == 14 && cat.ampacity[cat.sizes[1]] == 18 && cat.ampacity[cat.sizes[2]] == 24
    requires cat.ampacity[cat.sizes[3]] == 32 && cat.mvPerAm[cat.sizes[3]] == 11.0
    ensures FirstQualifying(c, cat, iz, 0) == Some(4.0)
  {
    assert !CarriesRequired(cat, iz, 0) && !CarriesRequired(cat, iz, 1) && !CarriesRequired(cat, iz, 2);
    assert Qualifies(c, cat, iz, 3) by {
      assert c.ib < 22.0;
      assert VoltageDrop(c, 11.0) <= 0.05 * c.voltage;
      assert EarthConductorSize(4.0) == 4.0;
      assert LoopImpedance(c, 4.0) == 0.44;
      assert Withstands(4.0, 500.0);
      assert DisconnectionTime(McbB, 500.0, 25) == 0.1;
    }
    FirstQualifyingAfter(c, cat, iz, 3);
  }

  /**
   * The 5 kW example: 230 V, pf 1, single phase, 10 m of single-core PVC by
   * method C at 30 degrees C, one circuit, no run in insulation, Cs = Cd = 1,
   * an MCB type B, 500 A of fault current and Ze 0.35 ohm, size "Auto".
   */
  const FiveKilowatt: Installation :=
    Installation(5.0, 230.0, 1.0, 10.0, Single, Pvc, SingleCore, C, McbB, 30, 1, 0, 1.0, 1.0, 500.0, 0.35, None)

  /** Its factors are Ca = Cg = 1 and Ci = 0.89, so the correction is 0.89. */
  lemma FiveKilowattCorrection(inst: Installation)
    requires inst == FiveKilowatt
    ensures inst.Valid() && Correction(inst) == 0.89
  {
    assert AmbientFactor(Pvc, 30) == 1.0;
    assert GroupingFactor(1) == 1.0;
    assert InsulationFactor(0) == 0.89;
  }

  /**
   * The whole calculation for the 5 kW example: Ib follows from the load,
   * the correction from the installation, and the result is a 25 A device
   * and a 4 mm2 cable.
   */
  lemma FiveKilowattExample(sqrt3: real, ib: real)
    requires sqrt3 > 0.0 && sqrt3 * sqrt3 == 3.0
    requires DesignCurrent(FiveKilowatt.power, FiveKilowatt.voltage, FiveKilowatt.pf, FiveKilowatt.phase, sqrt3) == Ok(ib)
    ensures FiveKilowatt.Valid() && Correction(FiveKilowatt) == 0.89
    ensures SelectRating(ib) == 25
    ensures FirstQualifying(CircuitOf(FiveKilowatt, sqrt3, ib, 25), CatalogueFor(Pvc, SingleCore, C, Single),
      RequiredIz(25, Correction(FiveKilowatt)), 0) == Some(4.0)
  {
    FiveKilowattCorrection(FiveKilowatt);
    assert ib * 230.0 == 5000.0;
    FiveKilowattRating(ib);
    var c := CircuitOf(FiveKilowatt, sqrt3, ib, 25);
    var cat := CatalogueFor(Pvc, SingleCore, C, Single);
    PvcSingleCEntries(cat);
    FiveKilowattSearch(c, cat, RequiredIz(25, 0.89));
  }
}

=== FILE: protection.dfy ===
/**
 * The protective-device rules shared by both BS 7671 calculators: the
 * standard device ratings, the design current, the earth-conductor sizing
 * rule, the approximate trip times and the maximum earth-fault loop
 * impedance per device.  Both scripts define these identically.
 */
module Protection {
  import opened Wrappers

  /** The protective devices offered by the calculators. */
  datatype Device = McbB | McbC | McbD | FuseBs88 | FuseBs1361
  {
    /** The device name starts with "MCB". */
    predicate IsMcb() { McbB? || McbC? || McbD? }
  }

  datatype Phase = Single | Three

  /** The error a calculation can stop with. */
  datatype Error =
    | MissingTableEntry   // a dictionary lookup on a key the table lacks (KeyError)
    | DivisionByZero      // a zero divisor in the design current (ZeroDivisionError)
    | UnboundMeasurement  // a result read before any assignment (NameError)

  /** Standard protective-device ratings in amperes, ascending. */
  const StandardRatings: seq<int> := [6, 10, 16, 20, 25, 32, 40, 50, 63, 80, 100]

  /** Strictly ascending sequences (tables walked in ascending order). */
  predicate StrictlyIncreasing(s: seq<real>)
  {
    forall i, j :: 0 <= i < j < |s| ==> s[i] < s[j]
  }

  /** The largest element of a non-empty list (Python's `max`). */
  function Max(s: seq<int>): (m: int)
    requires s != []
    ensures m in s
    ensures forall x :: x in s ==> x <= m
  {
    if |s| == 1 then s[0]
    else
      var rest := Max(s[1..]);
      assert forall x :: x in s[1..] ==> x <= rest;
      assert forall x :: x in s ==> x == s[0] || x in s[1..];
      if s[0] >= rest then s[0] else rest
  }

  /**
   * `next((r for r in rs if r >= ib), default)`: the first entry of `rs`
   * that is at least `ib`, or `default` when there is none.
   */
  function NextAtLeast(rs: seq<int>, ib: real, default: int): (r: int)
    ensures (exists x :: x in rs && x as real >= ib) ==> r in rs && r as real >= ib
    ensures (forall x :: x in rs ==> (x as real) < ib) ==> r == default
    ensures Ascending(rs) ==> forall x :: x in rs && x as real >= ib ==> r <= x
  {
    if rs == [] then default
    else if rs[0] as real >= ib then
      assert rs[0] in rs;
      rs[0]
    else
      var r := NextAtLeast(rs[1..], ib, default);
      assert forall x :: x in rs ==> x == rs[0] || x in rs[1..];
      assert forall x :: x in rs[1..] ==> x in rs;
      assert Ascending(rs) ==> Ascending(rs[1..]);
      r
  }

  /** Integer lists in strictly ascending order. */
  predicate Ascending(rs: seq<int>)
  {
    forall i, j :: 0 <= i < j < |rs| ==> rs[i] < rs[j]
  }

  /**
   * `next((r for r in rs if r >= ib), max(rs))` on an ascending list: the
   * smallest entry not below `ib`, or the largest entry when `ib` exceeds
   * them all.
   */
  function NextOrLargest(rs: seq<int>, ib: real): (r: int)
    requires rs != [] && Ascending(rs)
    ensures r in rs
    ensures ib <= rs[|rs| - 1] as real ==> r as real >= ib
    ensures forall x :: x in rs && x as real >= ib ==> r <= x
    ensures ib > rs[|rs| - 1] as real ==> r == rs[|rs| - 1]
  {
    MaxOfAscending(rs);
    assert rs[|rs| - 1] in rs;
    NextAtLeast(rs, ib, Max(rs))
  }

  /**
   * The device rating chosen for a design current: the smallest standard
   * rating not below `ib`, or the largest rating (100 A) when `ib` exceeds
   * every standard rating.
   */
  function SelectRating(ib: real): (r: int)
    ensures r in StandardRatings
    ensures ib <= 100.0 ==> r as real >= ib
    ensures forall x :: x in StandardRatings && x as real >= ib ==> r <= x
    ensures ib > 100.0 ==> r == 100
  {
    RatingsAscending(StandardRatings);
    NextOrLargest(StandardRatings, ib)
  }

  lemma RatingsAscending(rs: seq<int>)
    requires rs == StandardRatings
    ensures Ascending(rs) && rs[|rs| - 1] == 100
  {
  }

  /** The maximum of an ascending list is its last element. */
  lemma {:induction false} MaxOfAscending(s: seq<int>)
    requires s != [] && Ascending(s)
    ensures Max(s) == s[|s| - 1]
  {
    if |s| > 1 {
      assert Ascending(s[1..]);
      MaxOfAscending(s[1..]);
    }
  }

  /** `required_Iz = rating / correction`: the ampacity that, derated, still carries the rating. */
  function RequiredIz(rating: int, correction: real): (iz: real)
    requires correction > 0.0
    ensures iz * correction == rating as real
    ensures rating > 0 ==> iz > 0.0
    ensures correction <= 1.0 && rating >= 0 ==> iz >= rating as real
  {
    rating as real / correction
  }

  /**
   * Design current Ib = P*1000 / (V*pf), with an extra sqrt(3) in the
   * denominator for three-phase supplies; `sqrt3` stands for that root.
   * A zero voltage is a division by zero.
   */
  function DesignCurrent(power: real, voltage: real, pf: real, phase: Phase, sqrt3: real): (r: Result<real, Error>)
    requires power >= 0.0 && voltage >= 0.0 && 0.1 <= pf <= 1.0
    requires sqrt3 > 0.0 && sqrt3 * sqrt3 == 3.0
    ensures r.Err? <==> voltage == 0.0
    ensures r.Err? ==> r.error == DivisionByZero
    ensures r.Ok? ==> r.value >= 0.0
    ensures r.Ok? ==> r.value * PhaseFactor(phase, sqrt3) * voltage * pf == power * 1000.0
  {
    var denominator := PhaseFactor(phase, sqrt3) * voltage * pf;
    if denominator == 0.0 then Err(DivisionByZero)
    else Ok(power * 1000.0 / denominator)
  }

  /** 1 for single-phase, sqrt(3) for three-phase. */
  function PhaseFactor(phase: Phase, sqrt3: real): real
  {
    if phase == Single then 1.0 else sqrt3
  }

  /**
   * Protective (earth) conductor size for a line conductor size: the line
   * size up to 16 mm2, 16 mm2 up to 35 mm2, half the line size above.
   */
  function EarthConductorSize(lineSize: real): (r: real)
    ensures lineSize > 0.0 ==> 0.0 < r <= lineSize
    ensures r == lineSize || (lineSize > 16.0 && (r == 16.0 || r == lineSize / 2.0))
    ensures lineSize > 16.0 ==> r >= 16.0
  {
    if lineSize <= 16.0 then lineSize
    else if lineSize <= 35.0 then 16.0
    else lineSize / 2.0
  }

  /** Multiple of the rating at which the device trips in its fast region. */
  function TripMultiple(device: Device): (m: int)
    ensures m == 4 || m == 7 || m == 10 || m == 15
    ensures device.IsMcb() <==> m != 10
    ensures device.IsMcb() ==> (m == 4 <==> device == McbB) && (m == 15 <==> device == McbD)
  {
    match device
    case McbB => 4
    case McbC => 7
    case McbD => 15
    case FuseBs88 => 10
    case FuseBs1361 => 10
  }

  /**
   * Approximate disconnection time in seconds: 0.1 s for an MCB and 0.2 s
   * for a fuse once the fault current reaches the trip multiple of the
   * rating, 5 s otherwise.
   */
  function DisconnectionTime(device: Device, fault: real, rating: int): (t: real)
    ensures t == 0.1 || t == 0.2 || t == 5.0
    ensures t < 5.0 <==> fault >= (TripMultiple(device) * rating) as real
    ensures t == 0.1 ==> device.IsMcb()
    ensures t == 0.2 ==> !device.IsMcb()
  {
    if device.IsMcb() then
      var multiplier := if device == McbB then 4 else if device == McbC then 7 else 15;
      if fault >= (multiplier * rating) as real then 0.1 else 5.0
    else
      if fault >= (10 * rating) as real then 0.2 else 5.0
  }

  /** Required disconnection time: 0.4 s for ratings up to 32 A, else 5 s. */
  function RequiredDisconnectionTime(rating: int): (t: real)
    ensures t == 0.4 || t == 5.0
    ensures t == 0.4 <==> rating <= 32
  {
    if rating <= 32 then 0.4 else 5.0
  }

  /** Maximum permitted earth-fault loop impedance Zs (ohms) per device. */
  function MaxZs(device: Device): (z: real)
    ensures 0.38 <= z <= 1.15
    ensures device.IsMcb() ==> (z == 1.15 <==> device == McbB)
  {
    match device
    case McbB => 1.15
    case McbC => 0.57
    case McbD => 0.38
    case FuseBs88 => 0.8
    case FuseBs1361 => 0.6
  }

  /** The time check: the device disconnects within the required time. */
  predicate TimeOk(device: Device, fault: real, rating: int)
  {
    DisconnectionTime(device, fault, rating) <= RequiredDisconnectionTime(rating)
  }

  /** Above 32 A the required time is 5 s, which every device meets. */
  lemma TimeOkAboveThirtyTwo(device: Device, fault: real, rating: int)
    requires rating > 32
    ensures TimeOk(device, fault, rating)
  {
  }

  /** Up to 32 A the time check passes exactly when the device trips fast. */
  lemma TimeOkUpToThirtyTwo(device: Device, fault: real, rating: int)
    requires rating <= 32
    ensures TimeOk(device, fault, rating) <==> fault >= (TripMultiple(device) * rating) as real
  {
  }

  /** A design current exactly equal to a standard rating selects that rating. */
  lemma RatingAtEntry(x: int)
    requires x in StandardRatings
    ensures SelectRating(x as real) == x
  {
  }

  /** A larger design current never selects a smaller rating. */
  lemma RatingMonotonic(ib1: real, ib2: real)
    requires ib1 <= ib2
    ensures SelectRating(ib1) <= SelectRating(ib2)
  {
  }

  /** The earth conductor never shrinks as the line conductor grows. */
  lemma EarthSizeMonotonic(s1: real, s2: real)
    requires s1 <= s2
    ensures EarthConductorSize(s1) <= EarthConductorSize(s2)
  {
  }

  /** The three-phase design current is the single-phase one divided by sqrt(3). */
  lemma ThreePhaseCurrent(power: real, voltage: real, pf: real, sqrt3: real)
    requires power >= 0.0 && voltage > 0.0 && 0.1 <= pf <= 1.0
    requires sqrt3 > 0.0 && sqrt3 * sqrt3 == 3.0
    ensures DesignCurrent(power, voltage, pf, Three, sqrt3).Ok?
    ensures DesignCurrent(power, voltage, pf, Three, sqrt3).value * sqrt3
         == DesignCurrent(power, voltage, pf, Single, sqrt3).value
  {
  }
}

=== FILE: reduced_calculator.dfy ===
/**
 * The reduced BS 7671 cable-sizing calculator: four sizes from 2.5 mm2 to
 * 10 mm2, correction factors Ca, Cg and Ci entered directly, a fixed
 * external impedance Ze of 0.35 ohm, one voltage-drop table for both
 * phase arrangements, and the automatic search only.
 */
module ReducedCalculator {
  import opened Wrappers
  import opened Protection
  import opened Compliance

  datatype Material = Pvc | Xlpe
  datatype InstallMethod = C | D

  const PvcC: map<real, int> := map[2.5 := 27, 4.0 := 36, 6.0 := 46, 10.0 := 63]
  const PvcD: map<real, int> := map[2.5 := 24, 4.0 := 32, 6.0 := 41, 10.0 := 57]
  const XlpeC: map<real, int> := map[2.5 := 31, 4.0 := 42, 6.0 := 54, 10.0 := 73]
  const XlpeD: map<real, int> := map[2.5 := 28, 4.0 := 38, 6.0 := 49, 10.0 := 67]

  /** Voltage drop in mV/A/m, the single-phase values, used for both phases. */
  const VoltageDropTable: map<real, real> := map[2.5 := 18.0, 4.0 := 11.0, 6.0 := 7.3, 10.0 := 4.4]

  /** External earth-fault loop impedance, fixed at 0.35 ohm. */
  const Ze: real := 0.35

  /** `sorted(cable_table[cable_type][method].keys())`, the same for every table. */
  const Sizes: seq<real> := [2.5, 4.0, 6.0, 10.0]

  /** `cable_table[cable_type][method]`. */
  function AmpacityTable(material: Material, install: InstallMethod): (t: map<real, int>)
    ensures forall s :: s in t <==> s in Sizes
    ensures forall s :: s in t ==> 24 <= t[s] <= 73
  {
    match (material, install)
    case (Pvc, C) => PvcC
    case (Pvc, D) => PvcD
    case (Xlpe, C) => XlpeC
    case (Xlpe, D) => XlpeD
  }

  /**
   * Sizes lists every table's keys in ascending order, every table key is a
   * key of the voltage-drop table, and the ampacity rises strictly with the
   * size.
   */
  lemma TablesConsistent(material: Material, install: InstallMethod)
    ensures StrictlyIncreasing(Sizes)
    ensures AmpacityTable(material, install).Keys == (set s | s in Sizes)
    ensures AmpacityTable(material, install).Keys <= VoltageDropTable.Keys
    ensures var t := AmpacityTable(material, install);
      forall s1, s2 :: s1 in t && s2 in t && s1 < s2 ==> t[s1] < t[s2]
  {
    var t := AmpacityTable(material, install);
    assert t.Keys == {2.5, 4.0, 6.0, 10.0} && t[2.5] < t[4.0] < t[6.0] < t[10.0] by {
      match (material, install)
      case (Pvc, C) =>
      case (Pvc, D) =>
      case (Xlpe, C) =>
      case (Xlpe, D) =>
    }
    FourSizeTable(t);
  }

  /** A table on the four sizes whose values rise along them has the shape the search needs. */
  lemma FourSizeTable(t: map<real, int>)
    requires t.Keys == {2.5, 4.0, 6.0, 10.0} && t[2.5] < t[4.0] < t[6.0] < t[10.0]
    ensures StrictlyIncreasing(Sizes)
    ensures t.Keys == (set s | s in Sizes)
    ensures t.Keys <= VoltageDropTable.Keys
    ensures forall s1, s2 :: s1 in t && s2 in t && s1 < s2 ==> t[s1] < t[s2]
  {
  }

  /** Every catalogue size is at most 16 mm2, so its earth conductor is the same size. */
  lemma EarthSizeOfCatalogue()
    ensures forall s :: s in Sizes ==> EarthConductorSize(s) == s
  {
  }

  /** The catalogue the search walks. */
  function CatalogueFor(material: Material, install: InstallMethod): (cat: Catalogue)
    ensures cat.Covers() && StrictlyIncreasing(cat.sizes)
    ensures cat.sizes == Sizes
  {
    TablesConsistent(material, install);
    Catalogue(Sizes, AmpacityTable(material, install), VoltageDropTable)
  }

  /** The inputs of one calculation. */
  datatype Installation = Installation(
    power: real, voltage: real, pf: real, length: real, phase: Phase,
    material: Material, install: InstallMethod, device: Device,
    ca: real, cg: real, ci: real, fault: real)
  {
    /** The bounds the input widgets enforce. */
    predicate Valid()
    {
      && power >= 0.0 && voltage >= 0.0 && 0.1 <= pf <= 1.0 && length >= 0.0
      && ca >= 0.1 && cg >= 0.1 && ci >= 0.1 && fault >= 0.0
    }
  }

  /** Ca * Cg * Ci. */
  function Correction(inst: Installation): (k: real)
    requires inst.Valid()
    ensures k > 0.0
  {
    assert inst.ca * inst.cg > 0.0;
    inst.ca * inst.cg * inst.ci
  }

  /** The design current of a valid installation with a non-zero voltage. */
  function DesignIb(inst: Installation, sqrt3: real): real
    requires inst.Valid() && inst.voltage > 0.0
    requires sqrt3 > 0.0 && sqrt3 * sqrt3 == 3.0
  {
    DesignCurrent(inst.power, inst.voltage, inst.pf, inst.phase, sqrt3).value
  }

  /** The circuit the checks see, with Ze fixed at 0.35 ohm. */
  function CircuitOf(inst: Installation, sqrt3: real, ib: real, rating: int): Circuit
  {
    Circuit(inst.phase, sqrt3, ib, rating, inst.voltage, inst.length, Ze, inst.device, inst.fault)
  }

  /** Everything the calculator reports for one calculation. */
  datatype Report = Report(
    ib: real, rating: int, requiredIz: real,
    selected: Option<real>, capacity: Option<int>, earthSize: Option<real>,
    measured: Measured,
    izOk: bool)   // the "Iz Compliance" indicator

  /**
   * What one calculation shows for a valid installation with a non-zero
   * voltage: Ib, the rating, the required Iz and the first qualifying
   * size.  A selected size comes with its own capacity, earth size and
   * measured values, all passing.  Without a selection the loop has walked
   * to 10 mm2, the measured values are those of the last size that carried
   * the required Iz (zeros if none), and the Iz badge compares the 10 mm2
   * capacity.
   */
  predicate Reports(inst: Installation, sqrt3: real, rep: Report)
    requires inst.Valid() && inst.voltage > 0.0
    requires sqrt3 > 0.0 && sqrt3 * sqrt3 == 3.0
  {
    var circuit := CircuitOf(inst, sqrt3, rep.ib, rep.rating);
    var cat := CatalogueFor(inst.material, inst.install);
    && rep.ib == DesignIb(inst, sqrt3)
    && rep.rating == SelectRating(rep.ib)
    && rep.requiredIz == RequiredIz(rep.rating, Correction(inst))
    && rep.selected == FirstQualifying(circuit, cat, rep.requiredIz, 0)
    && (rep.selected.Some? ==>
      && rep.selected.value in Sizes
      && rep.izOk
      && rep.capacity == Some(AmpacityTable(inst.material, inst.install)[rep.selected.value])
      && rep.earthSize == rep.selected
      && rep.measured == Evaluate(circuit, rep.selected.value, VoltageDropTable[rep.selected.value])
      && rep.measured.checks.AllPass())
    && (rep.selected.None? ==>
      var evaluated := LastEvaluated(circuit, cat, rep.requiredIz, |Sizes|);
      && rep.capacity == Some(AmpacityTable(inst.material, inst.install)[10.0])
      && rep.earthSize == Some(10.0)
      && rep.measured == (if evaluated.Some? then evaluated.value else Unchecked)
      && (rep.izOk <==> rep.capacity.value as real >= rep.requiredIz))
  }

  /**
   * One press of "Calculate" as written: when no size carries the required
   * current, the measured values are never assigned and reading them for
   * the chart and the export stops the script.
   */
  method CalculateAsWritten(inst: Installation, sqrt3: real) returns (r: Result<Report, Error>)
    requires inst.Valid()
    requires sqrt3 > 0.0 && sqrt3 * sqrt3 == 3.0
    ensures inst.voltage == 0.0 ==> r == Err(DivisionByZero)
    ensures inst.voltage > 0.0 ==>
      var rating := SelectRating(DesignIb(inst, sqrt3));
      var requiredIz := RequiredIz(rating, Correction(inst));
      (r == Err(UnboundMeasurement) <==>
        forall i :: 0 <= i < |Sizes| ==> !CarriesRequired(CatalogueFor(inst.material, inst.install), requiredIz, i))
    ensures r.Err? ==> r.error == DivisionByZero || r.error == UnboundMeasurement
    ensures r.Ok? ==> inst.voltage > 0.0 && Reports(inst, sqrt3, r.value)
    ensures r.Ok? ==> LastEvaluated(CircuitOf(inst, sqrt3, r.value.ib, r.value.rating),
      CatalogueFor(inst.material, inst.install), r.value.requiredIz, |Sizes|).Some?
  {
    var ibResult := DesignCurrent(inst.power, inst.voltage, inst.pf, inst.phase, sqrt3);
    if ibResult.Err? {
      return Err(ibResult.error);
    }
    var ib := ibResult.value;
    var rating := SelectRating(ib);
    var requiredIz := RequiredIz(rating, Correction(inst));
    var st := AutoSearch(CircuitOf(inst, sqrt3, ib, rating), CatalogueFor(inst.material, inst.install), requiredIz);
    if st.evaluated.None? {
      return Err(UnboundMeasurement);
    }
    var izOk := st.capacity.Some? && st.capacity.value as real >= requiredIz;
    if st.selected.Some? {
      EarthSizeOfCatalogue();
      assert st.selected.value in Sizes by {
        SmallestCompliant(CircuitOf(inst, sqrt3, ib, rating), CatalogueFor(inst.material, inst.install), requiredIz);
      }
    }
    r := Ok(Report(ib, rating, requiredIz, st.selected, st.capacity, st.earthSize, st.evaluated.value, izOk));
  }

  /**
   * One press of "Calculate", with the measured values starting from zero
   * as in the fuller calculator: it stops only on a zero voltage, selects
   * the first compliant size, and reports the Iz indicator as passed
   * whenever a size is selected.
   */
  method Calculate(inst: Installation, sqrt3: real) returns (r: Result<Report, Error>)
    requires inst.Valid()
    requires sqrt3 > 0.0 && sqrt3 * sqrt3 == 3.0
    ensures r.Err? <==> inst.voltage == 0.0
    ensures r.Err? ==> r.error == DivisionByZero
    ensures r.Ok? ==> Reports(inst, sqrt3, r.value)
  {
    var ibResult := DesignCurrent(inst.power, inst.voltage, inst.pf, inst.phase, sqrt3);
    if ibResult.Err? {
      return Err(ibResult.error);
    }
    var ib := ibResult.value;
    var rating := SelectRating(ib);
    var requiredIz := RequiredIz(rating, Correction(inst));
    var st := AutoSearch(CircuitOf(inst, sqrt3, ib, rating), CatalogueFor(inst.material, inst.install), requiredIz);
    var measured := if st.evaluated.Some? then st.evaluated.value else Unchecked;
    var izOk := st.capacity.Some? && st.capacity.value as real >= requiredIz;
    if st.selected.Some? {
      EarthSizeOfCatalogue();
      assert st.selected.value in Sizes by {
        SmallestCompliant(CircuitOf(inst, sqrt3, ib, rating), CatalogueFor(inst.material, inst.install), requiredIz);
      }
    }
    r := Ok(Report(ib, rating, requiredIz, st.selected, st.capacity, st.earthSize, measured, izOk));
  }

  /**
   * With Ze fixed at 0.35 ohm and every catalogue size its own earth
   * conductor, Zs = 0.35 + 2 * 0.018 * length / size.
   */
  lemma FixedZeLoopImpedance(inst: Installation, sqrt3: real, ib: real, rating: int, i: int)
    requires 0 <= i < |Sizes|
    ensures LoopImpedance(CircuitOf(inst, sqrt3, ib, rating), Sizes[i]) == 0.35 + 0.036 * inst.length / Sizes[i]
  {
    EarthSizeOfCatalogue();
    assert Sizes[i] in Sizes;
  }

  /**
   * On three phases the drop is sqrt(3) times the single-phase formula, and
   * with the three-phase current (the single-phase one over sqrt(3)) the two
   * roots cancel: for the same load the drop equals the single-phase drop.
   */
  lemma ThreePhaseDrop(inst: Installation, sqrt3: real, mv: real)
    requires inst.Valid() && inst.voltage > 0.0
    requires sqrt3 > 0.0 && sqrt3 * sqrt3 == 3.0
    ensures var single := inst.(phase := Single);
      var three := inst.(phase := Three);
      var ib1, ib3 := DesignIb(single, sqrt3), DesignIb(three, sqrt3);
      && VoltageDrop(CircuitOf(three, sqrt3, ib3, 0), mv) == sqrt3 * VoltageDrop(CircuitOf(single, sqrt3, ib3, 0), mv)
      && VoltageDrop(CircuitOf(three, sqrt3, ib3, 0), mv) == VoltageDrop(CircuitOf(single, sqrt3, ib1, 0), mv)
  {
    var single := inst.(phase := Single);
    var three := inst.(phase := Three);
    ThreePhaseCurrent(inst.power, inst.voltage, inst.pf, sqrt3);
    var ib1, ib3 := DesignIb(single, sqrt3), DesignIb(three, sqrt3);
    assert ib3 * sqrt3 == ib1;
    calc {
      VoltageDrop(CircuitOf(three, sqrt3, ib3, 0), mv);
      sqrt3 * mv * ib3 * inst.length / 1000.0;
      mv * (ib3 * sqrt3) * inst.length / 1000.0;
      VoltageDrop(CircuitOf(single, sqrt3, ib1, 0), mv);
    }
  }

  /**
   * The largest ampacity in any table is 73 A, so with a rating of 100 A and
   * no derating no size carries the required current.
   */
  lemma NothingCarriesHundredAmps(material: Material, install: InstallMethod, requiredIz: real)
    requires requiredIz >= 100.0
    ensures forall i :: 0 <= i < |Sizes| ==> !CarriesRequired(CatalogueFor(material, install), requiredIz, i)
  {
  }

  /**
   * A 30 kW single-phase load at 230 V: Ib is about 130 A, the rating is
   * 100 A, the required Iz is 100 A, and no size carries it, so
   * CalculateAsWritten stops with UnboundMeasurement while Calculate
   * reports that no size was found.
   */
  lemma ThirtyKilowattLoad(sqrt3: real)
    requires sqrt3 > 0.0 && sqrt3 * sqrt3 == 3.0
    ensures var inst := Installation(30.0, 230.0, 1.0, 10.0, Single, Pvc, C, McbB, 1.0, 1.0, 1.0, 500.0);
      && SelectRating(DesignIb(inst, sqrt3)) == 100
      && RequiredIz(100, Correction(inst)) == 100.0
      && forall i :: 0 <= i < |Sizes| ==> !CarriesRequired(CatalogueFor(inst.material, inst.install), 100.0, i)
  {
    var inst := Installation(30.0, 230.0, 1.0, 10.0, Single, Pvc, C, McbB, 1.0, 1.0, 1.0, 500.0);
    assert SelectRating(DesignIb(inst, sqrt3)) == 100 by {
      var ib := DesignIb(inst, sqrt3);
      assert ib * 230.0 == 30000.0;
    }
    assert RequiredIz(100, Correction(inst)) == 100.0 by {
      assert Correction(inst) == 1.0;
    }
    NothingCarriesHundredAmps(Pvc, C, 100.0);
  }
}

=== FILE: wrappers.dfy ===
/** Optional values and results with an error, as used across the calculators. */
module Wrappers {

  /** A value that may be absent (Python's `None`). */
  datatype Option<+T> = None | Some(value: T)

  /** Either a computed value or the error the script would raise. */
  datatype Result<+T, +E> = Ok(value: T) | Err(error: E)
}
